=== FILE: README.md ===
# lsh pipeline executor in Dafny

This project models the pipeline executor of `lsh`, a small Unix shell, as
written in `lsh.c`. It covers the helpers `count_programs`, `reverse_array`,
`safe_close` and `strip_white`, and all of `handle_command`:

- opening the input and output redirections;
- the loop that wires one pipe per stage boundary and forks the external stages;
- the `exit` and `cd` built-ins;
- the foreground wait;
- the `goto cleanup` paths.

The parent's descriptor table is a `Descriptors.Table`. It holds the set of
open numbers, the log of every `close` call, and the "strays": closes of a
number that was not open, which fail with EBADF. The shell is taken to run
with stdin, stdout and stderr open (`Descriptors.StdioOpen`). Under that
assumption new numbers follow the POSIX rule that `open` and `pipe` return the
lowest free number, which is then always above 2. Numbers are reused after a
close. The operating
system is an oracle (`Executor.Os`). It says whether each redirection opens,
at which stages `pipe` or `fork` fails, which paths `chdir` accepts, and which
pid each fork returns.

A forked child is recorded as an `Executor.Child`: its stage, its argument
vector, what its two `dup2` calls put on stdin and stdout, the read end it
closes, its interrupt set-up and its pid. Five behaviours of `handle_command`
are wrong (see "## Findings"); the three double closes come from the same
cleanup block. So `Executor.Variant` selects between
`AsWritten`, the code as it stands, and `Repaired`, the evidently intended
behaviour. Every general theorem is stated for both variants, or says which
one it is about.

`Lsh.HandleCommand` is the imperative entry point. `Pipeline.Run` is the same
computation as one recursive function. `Pipeline` also holds the stage loop's
invariant. The concrete runs in `Findings` use `Run`.

## Model

| member | source | states |
|---|---|---|
| Parse.Nodes | parse.h:1-7 | the nodes reachable from a stage list through `next`: empty exactly for a null list; the first is the head; each next one is its predecessor's `next`; the last one's `next` is null |
| Stages.CountPrograms | lsh.c:251-261 | the count is the number of nodes reachable through `next` from the head, and it is 0 exactly when the head is null |
| Stages.ReverseArray | lsh.c:267-277 | the array has `count` entries; entry `i` is parse-order node `count-1-i`; entry `count-1` is the head; for the full count the array is the reversal of the list |
| Stages.ReverseIndex | lsh.c:267-277 | the reference reversal keeps the length and puts element `n-1-i` at index `i` |
| Stages.ReverseInvolution | lsh.c:267-277 | reversing the execution order again gives back the parse order |
| Stages.ExecutionOrderRunnable | lsh.c:122-136 | the execution-order array has one entry per stage, and each is a node with a non-empty argument vector, so `pgmlist[0]` exists |
| Descriptors.CloseTwice | lsh.c:286-290 | `safe_close` of an open number above 1, twice: both calls are logged, and only the second is a stray |
| Descriptors.SafeClose | lsh.c:286-290 | a descriptor at or below 1 leaves the table untouched; above 1 it is logged once and no longer open, and the close is a stray exactly when it was not open |
| Descriptors.SafeCloseGuard | lsh.c:286-290 | -1, stdin and stdout are never closed, and descriptor 2 is closed |
| Descriptors.CloseAllCloses | lsh.c:242-245 | a run of `safe_close` calls logs exactly the entries above 1, in order |
| Descriptors.CloseAllOpen | lsh.c:242-245 | after a run of `safe_close` calls the parent holds nothing of the list above 1 and keeps everything else it held |
| Descriptors.CloseAllNoStrays | lsh.c:242-245 | when every entry above 1 is open and none is repeated, no close goes astray |
| Descriptors.ClosePair | lsh.c:208-209 | closing both ends of a held trailing pair gives back exactly what was held besides them, with no stray close |
| Descriptors.LowestFree | lsh.c:103-106 | a new descriptor is above 2, not open, and every number from 3 below it is open |
| Descriptors.LowestFreeIsLowest | lsh.c:103-106 | with the three standard descriptors open, the number handed out is not open and every number below it is |
| Descriptors.WithPipe | lsh.c:158-166 | a successful `pipe` yields two distinct numbers above 2 that were not open and are open afterwards; the close log is untouched |
| Descriptors.OpenFd | lsh.c:102-106 | a successful `open` yields a number above 2 that was not open; a failed one yields -1 |
| Strip.TrimLeftShape | lsh.c:297-305 | skipping leading blanks leaves a suffix that starts with a non-blank, with only blanks before it |
| Strip.TrimRightShape | lsh.c:307-312 | cutting trailing blanks leaves a prefix that ends with a non-blank, with only blanks after it |
| Strip.TrimCharacterised | lsh.c:295-313 | trimming keeps a slice with only blanks on either side; the slice is empty or starts and ends with a non-blank; it is empty exactly when the line is all blanks |
| Strip.TrimIdempotent | lsh.c:295-313 | trimming twice is the same as trimming once |
| Strip.StripWhite | lsh.c:295-313 | the two loops compute the reference trim: the slice from the first to the last non-blank, empty exactly for empty or all-blank input |
| Executor.Builtin | lsh.c:136-144 | `exit` sets `done` and changes nothing else; `cd` to an accepted path moves the working directory; any other `cd` only adds a report naming its target, or no target; other programs leave the session alone |
| Executor.Begin | lsh.c:99-129 | a missing redirection uses stdin or stdout; both opens are attempted, and the output one is attempted even when the input one failed; each failure is reported once, input first, and takes the cleanup path; on success the trailing pair is (fdin, -1) and the parent holds exactly what it held plus the opened numbers |
| Executor.Step | lsh.c:130-224 | a built-in only changes the session; a successful external stage adds one child reading the previous read end; an external stage never changes `done` or the working directory; `fdin`, `fdout` and the waits are untouched |
| Executor.Wait | lsh.c:226-237 | a background command waits on nothing; as written a foreground command waits on `pids[0..count)`; repaired, it waits on exactly the pids fork returned, in launch order |
| Executor.Released | lsh.c:239-245 | cleanup passes only the four bookkeeping descriptors to `safe_close`, always including the trailing write end; as written it passes exactly the four, in source order |
| Handle.ExternalFacts | lsh.c:136-146 | the stages that reach `fork` are exactly the non-built-in stages so far, in increasing order |
| HandleProofs.StepOwnership | lsh.c:147-220 | one stage keeps the parent holding exactly its old descriptors plus the command's live ones, with no stray close; the only exception is an as-written fork failure after a pipe |
| HandleProofs.OwnershipForkFailed | lsh.c:216-220 | a failed fork launches nothing; repaired, it also closes the pipe it just made |
| HandleProofs.OwnershipLast | lsh.c:201-215 | the last stage hands the trailing pair to its child, and the parent keeps only `fdout` of the command's descriptors |
| HandleProofs.OwnershipPiped | lsh.c:147-215 | a middle stage hands the trailing pair to its child, and the parent then holds only the newest pipe pair and `fdout` |
| HandleProofs.StepWiring | lsh.c:147-215 | after each stage, every child is wired as described for `Lsh.HandleCommand`, the trailing pair is what the newest child left, and the pid array holds the pid of each launched stage and nothing else |
| HandleProofs.StepProgress | lsh.c:147-220 | the loop keeps going only while no external stage has failed; when it stops, it records the first external stage whose `pipe` or `fork` failed |
| HandleProofs.StepSession | lsh.c:136-220 | the session is the built-ins applied in stage order, plus one report when a stage fails |
| HandleProofs.CleanupSane | lsh.c:239-245 | on every path, cleanup closes only numbers the command obtained and keeps everything the parent held before |
| HandleProofs.CleanupAfterOpenFailure | lsh.c:108-118 | after a failed open, cleanup releases the redirection that did open, once, and nothing goes astray |
| HandleProofs.CleanupRepaired | lsh.c:239-245 | repaired, cleanup gives back exactly the parent's original descriptors, with no stray close |
| HandleProofs.CleanupAsWritten | lsh.c:239-245 | as written, cleanup still gives back exactly the original descriptors whenever no pipe leaked, although it may close a number twice |
| HandleProofs.DispatchedDone | lsh.c:136-137 | `done` ends up set exactly when it already was or some stage reached is `exit` |
| HandleProofs.DispatchedCwd | lsh.c:138-144 | the working directory is the target of the last successful `cd` reached, or unchanged when there is none |
| Pipeline.LoopStep | lsh.c:130-224 | one turn of the stage loop keeps the loop invariant: wiring, progress, session, and descriptor ownership |
| Lsh.StageLoop | lsh.c:130-224 | the loop stops after the last stage or at the first failure, with the invariant intact, and computes the recursive `Pipeline.Loop` |
| Lsh.HandleCommand | lsh.c:82-246 | redirections and the fail-fast open check, whose one report names the input file when it failed to open and otherwise the output file; one child per external stage up to the first failure, the first reading `fdin`, each later one reading the pipe its predecessor writes, the last writing to `fdout`; no child writes to the descriptor it reads, and neither end of a new pipe is the input of the stage that made it; children get the interrupt set-up for foreground or background; a failure is reported once and stops launching; waiting happens only for a finished foreground command; afterwards the parent has lost nothing, closed only numbers it obtained, and holds its old set again unless the as-written fork-failure leak occurred; repaired, no close goes astray; the method computes `Pipeline.Run` |
| Findings.DoubleCloseInput | lsh.c:208-245 | `cat < in` as written closes descriptor 3 twice, and the second close is a stray |
| Findings.SingleCloseInput | lsh.c:208-245 | `cat < in` repaired closes 3 once |
| Findings.ReusedInputClosed | lsh.c:208-245 | `cat < in \| a \| b` whose fork for `a` fails, as written: 3 is reused for the read end of `a`'s pipe, cleanup closes it without any stray, and the write end 6 stays open |
| Findings.ReusedInputKept | lsh.c:158-245 | the same command repaired closes both ends of `a`'s pipe and the trailing pair, and gives back only the standard descriptors, with no stray |
| Findings.KeptInputClosedTwice | lsh.c:239-245 | `cd /tmp < in` as written closes descriptor 3 twice, as `fdin` and as the trailing read end, and the second close is a stray |
| Findings.KeptInputClosedOnce | lsh.c:239-245 | the same command repaired closes 3 once |
| Findings.DoubleCloseOutput | lsh.c:243-245 | `echo > out` as written closes descriptor 3 twice, and the second close is a stray |
| Findings.SingleCloseOutput | lsh.c:243-245 | `echo > out` repaired closes 3 once |
| Findings.ForkFailureLeaksPipe | lsh.c:158-245 | `ls \| wc` whose first fork fails, as written, leaves both ends 3 and 4 of the new pipe open |
| Findings.ForkFailureClosesPipe | lsh.c:158-220 | the same command repaired closes 3 and 4 and gives back the original descriptors |
| Findings.WaitOnUnassignedPid | lsh.c:229-234 | `cd /tmp` in the foreground, as written, hands `waitpid` the never-assigned `pids[0]` |
| Findings.WaitOnNothing | lsh.c:229-234 | the same command repaired waits on nothing |

## Left out

- The prompt loop, readline, history and the `WNOHANG` zombie sweep (lsh.c:38-80): interactive I/O and process plumbing.
- What a child does after `fork` (lsh.c:175-199): `setpgid`, `signal`, its own closes, `execvp` and its failure exit. This is separate-process behaviour. A child is recorded only by its `dup2` targets, the read end it drops, and its interrupt set-up.
- `waitpid` itself and exit statuses: the model records only the pid each wait is given.
- File-system effects of `open` and `chdir`, and the permission bits `DEFAULT_MODE` (lsh.c:25). An `open` either yields a fresh number or fails; `chdir` accepts exactly the paths in `Os.dirs`. The output redirection is opened without `O_TRUNC`, so an existing file is overwritten in place and not truncated; file contents are outside the model.
- Pid values: fork for stage `i` returns `firstPid + 1 + i`. Only their identity matters here.
- The text of the error messages: each becomes one `Executor.Report` value.
- `free(pgms)` (lsh.c:240) and the `calloc` in `reverse_array`: memory management.
- `DEBUG_PRINT` logging, and `parse` (parse.h:20). The parser is not part of this model. Its output is taken as given: a non-null stage list whose argument vectors are non-empty (`Parse.WellFormed`).
- `rstderr` (parse.h:14) is carried in `Parse.Command`, but the executor never reads it.
- Lsh.HandleCommand: requires stdin, stdout and stderr to be open in the parent (`StdioOpen`), and so do `Begin` and `Pipeline.Run`. A shell started with one of them closed would get 0, 1 or 2 from `open`, and `safe_close` would skip 0 and 1; the model does not cover that start-up state.
- Lsh.HandleCommand: requires at most 20 stages. `pids[20]` (lsh.c:92) is written at the stage index (lsh.c:214) with no bound check, and the source relies on the parser never producing more stages. The model makes that bound a precondition instead of modelling the out-of-bounds write.
- Executor.Builtin: the working directory is the literal `cd` argument, and `Os.dirs` is a fixed set of accepted strings. Relative paths are not resolved against the current directory, so `cd a | cd b` ends in `b`, not `a/b`.
- Executor.Builtin: `cd` with no argument calls `chdir(NULL)`. That call is modelled as a failure whose report carries no target.
- Strip.StripWhite: the shift at lsh.c:304 is `strcpy` between overlapping buffers, which C leaves undefined. The model performs the intended left shift. Strings are taken to hold no NUL before their end.
- Where the code and the documented design disagree, the model follows the code. There is no depth check before forking; that is the `HandleCommand` bound above. Cleanup closes the four descriptors whether or not they are still open; that gives the double closes among the findings below. Built-ins close no pipe ends, which is harmless: a built-in never makes a pipe, and it leaves the trailing pair in place for the next fork or for cleanup to close.

## Findings

| source | as written | input that shows it | evidently intended | confidence | as-written member | corrected member |
|---|---|---|---|---|---|---|
| lsh.c:208-245 | the redirected input descriptor is closed by the parent once the first child has it, and cleanup closes `fdin` again | `cat < in` with only 0, 1, 2 open: closes are [3, 3], and the second is a stray; in `cat < in \| a \| b` whose fork for `a` fails, 3 has been reused for `a`'s pipe and cleanup closes that live read end (Findings.ReusedInputClosed) | cleanup releases `fdin` only if no child took it over | not executed | Findings.DoubleCloseInput | HandleProofs.CleanupRepaired |
| lsh.c:239-245 | when no child takes over the redirected input (a built-in, or a `pipe` or `fork` failure at the first external stage), the trailing read end is still `fdin`, so cleanup closes it as `fdin` and again as `previous_read_end` | `cd /tmp < in` with only 0, 1, 2 open: closes are [3, 3], and the second is a stray | the input descriptor is closed once | not executed | Findings.KeptInputClosedTwice | HandleProofs.CleanupRepaired |
| lsh.c:243-245 | the last stage's write end is `fdout`, so after the shift cleanup closes `fdout` and then the trailing write end, which is the same number | `echo > out` with only 0, 1, 2 open: closes are [3, 3], and the second is a stray | the output descriptor is closed once | not executed | Findings.DoubleCloseOutput | HandleProofs.CleanupRepaired |
| lsh.c:158-220 | when `fork` fails after `pipe` succeeded, the new pipe is not yet the trailing pair, and cleanup never closes it | `ls \| wc` whose first fork fails: descriptors 3 and 4 stay open after the call | the fork-failure path closes both ends of the pipe it just made | not executed | Findings.ForkFailureLeaksPipe | HandleProofs.OwnershipForkFailed |
| lsh.c:229-234 | the foreground wait runs over every stage index, including built-ins, whose `pids` slot was never assigned | `cd /tmp` in the foreground: `waitpid` is given the uninitialised `pids[0]` | wait only on the pids that fork returned | not executed | Findings.WaitOnUnassignedPid | Executor.Wait |

=== FILE: descriptors.dfy ===
/**
 * The parent process's descriptor table, reduced to what the pipeline
 * executor of lsh.c can observe: which numbers are open, and every
 * `close` call it issues.
 */
module Descriptors {

  const STDIN := 0
  const STDOUT := 1
  const STDERR := 2
  /** The value lsh.c stores for "no descriptor" and that a failed `open`/`fork` returns. */
  const NO_FD := -1

  /**
   * `open`: the numbers currently open in the parent.
   * `closes`: every `close(2)` issued, in order.
   * `strays`: the subsequence of `closes` whose descriptor was not open (EBADF).
   */
  datatype Table = Table(open: set<int>, closes: seq<int>, strays: seq<int>)

  /** A raw `close(2)`: the number is released; closing one that is not open is an EBADF call. */
  function Close(t: Table, fd: int): Table
  {
    Table(t.open - {fd}, t.closes + [fd], if fd in t.open then t.strays else t.strays + [fd])
  }

  /**
   * `safe_close`: closes only descriptors above standard output, so -1,
   * stdin and stdout are never closed; standard error (2) is not protected.
   */
  function SafeClose(t: Table, fd: int): (r: Table)
    ensures fd <= STDOUT ==> r == t
    ensures fd > STDOUT ==> r.closes == t.closes + [fd] && r.open == t.open - {fd}
    ensures fd > STDOUT ==> (r.strays == t.strays <==> fd in t.open)
  {
    if fd > STDOUT then Close(t, fd) else t
  }

  /** The members of `s` that `safe_close` would act on. */
  function Guarded(s: set<int>): set<int>
  {
    set fd | fd in s && fd > STDOUT
  }

  /** Closing both ends of a held pair gives back exactly what was held besides them, with no stray close. */
  lemma ClosePair(t: Table, rest: set<int>, a: int, b: int)
    requires t.open == rest + Guarded({a, b}) && rest !! Guarded({a, b})
    requires a > STDOUT && b > STDOUT ==> a != b
    ensures SafeClose(SafeClose(t, a), b).open == rest
    ensures SafeClose(SafeClose(t, a), b).strays == t.strays
  {
    var u := SafeClose(t, a);
    assert a > STDOUT ==> a in t.open;
    assert u.open == rest + Guarded({b});
    assert b > STDOUT ==> b in u.open;
  }

  /** The guard rejects exactly -1, stdin and stdout among the small numbers, and lets stderr through. */
  lemma SafeCloseGuard(t: Table)
    ensures SafeClose(t, NO_FD) == t && SafeClose(t, STDIN) == t && SafeClose(t, STDOUT) == t
    ensures SafeClose(t, 2).closes == t.closes + [2]
  {
  }

  /** The entries of `s` that `safe_close` acts on, in order. */
  function Closable(s: seq<int>): (r: seq<int>)
    ensures forall k :: 0 <= k < |r| ==> r[k] > STDOUT && r[k] in s
    ensures forall fd :: fd in s && fd > STDOUT ==> fd in r
  {
    if s == [] then []
    else (if s[0] > STDOUT then [s[0]] else []) + Closable(s[1..])
  }

  /** `safe_close` of an open number above stdout, twice: both calls are logged, and exactly the second one goes astray. */
  lemma CloseTwice(t: Table, fd: int)
    requires fd > STDOUT && fd in t.open
    ensures SafeClose(SafeClose(t, fd), fd) == Table(t.open - {fd}, t.closes + [fd, fd], t.strays + [fd])
  {
  }

  /** `safe_close` applied to each entry of `s` in turn. */
  function CloseAll(t: Table, s: seq<int>): Table
    decreases s
  {
    if s == [] then t else CloseAll(SafeClose(t, s[0]), s[1..])
  }

  /** The close log grows by exactly the closable entries of `s`, in order. */
  lemma {:induction false} CloseAllCloses(t: Table, s: seq<int>)
    ensures CloseAll(t, s).closes == t.closes + Closable(s)
    decreases s
  {
    if s != [] {
      var t' := SafeClose(t, s[0]);
      CloseAllCloses(t', s[1..]);
      assert CloseAll(t, s) == CloseAll(t', s[1..]);
      if s[0] > STDOUT {
        assert Closable(s) == [s[0]] + Closable(s[1..]);
        assert t'.closes == t.closes + [s[0]];
        assert t.closes + [s[0]] + Closable(s[1..]) == t.closes + ([s[0]] + Closable(s[1..]));
      } else {
        assert Closable(s) == Closable(s[1..]);
        assert t' == t;
      }
    }
  }

  /** After the closes, the parent no longer holds any closable entry of `s`, and holds everything else it held. */
  lemma {:induction false} CloseAllOpen(t: Table, s: seq<int>)
    ensures CloseAll(t, s).open == t.open - Guarded(set fd | fd in s)
    decreases s
  {
    if s != [] {
      CloseAllOpen(SafeClose(t, s[0]), s[1..]);
      assert (set fd | fd in s) == {s[0]} + (set fd | fd in s[1..]);
    }
  }

  /** `s` names each descriptor above stdout at most once. */
  predicate DistinctClosable(s: seq<int>)
  {
    forall j, k :: 0 <= j < k < |s| && s[j] > STDOUT ==> s[j] != s[k]
  }

  /** Closing distinct open descriptors never draws EBADF. */
  lemma {:induction false} CloseAllNoStrays(t: Table, s: seq<int>)
    requires DistinctClosable(s)
    requires forall j :: 0 <= j < |s| && s[j] > STDOUT ==> s[j] in t.open
    ensures CloseAll(t, s).strays == t.strays
    decreases s
  {
    if s != [] {
      var t' := SafeClose(t, s[0]);
      var rest := s[1..];
      forall j | 0 <= j < |rest| && rest[j] > STDOUT ensures rest[j] in t'.open {
        assert rest[j] == s[j + 1];
      }
      forall j, k | 0 <= j < k < |rest| && rest[j] > STDOUT ensures rest[j] != rest[k] {
        assert rest[j] == s[j + 1] && rest[k] == s[k + 1];
      }
      CloseAllNoStrays(t', rest);
    }
  }

  function Above(s: set<int>, n: int): set<int>
  {
    set k | k in s && k >= n
  }

  /** The smallest number at or above `n` that is not in `s`. */
  function FreeFrom(s: set<int>, n: int): (fd: int)
    ensures fd >= n && fd !in s
    ensures forall k :: n <= k < fd ==> k in s
    decreases |Above(s, n)|
  {
    if n !in s then n
    else
      assert |Above(s, n + 1)| < |Above(s, n)| by {
        assert Above(s, n) == Above(s, n + 1) + {n};
        assert n !in Above(s, n + 1);
      }
      FreeFrom(s, n + 1)
  }

  /**
   * The descriptor a successful `open` or `pipe` hands out: POSIX gives the
   * lowest unused number; the standard streams 0-2 are assumed taken, so the
   * search starts at 3.
   */
  function LowestFree(s: set<int>): (fd: int)
    ensures fd > 2 && fd !in s
    ensures forall k :: 3 <= k < fd ==> k in s
  {
    FreeFrom(s, 3)
  }

  /**
   * The shell runs with stdin, stdout and stderr open, so no `open` or `pipe`
   * of the executor can be handed a number below 3.
   */
  predicate StdioOpen(s: set<int>)
  {
    STDIN in s && STDOUT in s && STDERR in s
  }

  /** With the three standard descriptors open, `LowestFree` is the POSIX lowest free number. */
  lemma LowestFreeIsLowest(s: set<int>)
    requires StdioOpen(s)
    ensures LowestFree(s) !in s
    ensures forall k :: 0 <= k < LowestFree(s) ==> k in s
  {
  }

  /** The read end and the write end a successful `pipe` returns. */
  function PipeRead(t: Table): int
  {
    LowestFree(t.open)
  }

  function PipeWrite(t: Table): int
  {
    LowestFree(t.open + {PipeRead(t)})
  }

  /** `pipe` succeeded: two distinct numbers, neither open before, are open now. */
  function WithPipe(t: Table): (r: Table)
    ensures PipeRead(t) !in t.open && PipeWrite(t) !in t.open && PipeRead(t) != PipeWrite(t)
    ensures PipeRead(t) > 2 && PipeWrite(t) > 2
    ensures r.open == t.open + {PipeRead(t), PipeWrite(t)}
    ensures r.closes == t.closes && r.strays == t.strays
  {
    t.(open := t.open + {PipeRead(t), PipeWrite(t)})
  }

  /** The descriptor an `open` call returns: a fresh number, or -1 when it fails. */
  function OpenFd(t: Table, succeeds: bool): (fd: int)
    ensures succeeds ==> fd > 2 && fd !in t.open
    ensures !succeeds ==> fd == NO_FD
  {
    if succeeds then LowestFree(t.open) else NO_FD
  }

  /** The table after an `open` call: the returned number is held when the call succeeds. */
  function AfterOpen(t: Table, succeeds: bool): Table
  {
    if succeeds then t.(open := t.open + {OpenFd(t, succeeds)}) else t
  }
}

=== FILE: executor.dfy ===
/**
 * The bookkeeping of `handle_command` in lsh.c: opening the redirections,
 * wiring one pipe per stage boundary, forking the external stages,
 * dispatching the built-ins, waiting, and the cleanup every path reaches.
 * The operating system is an oracle (`Os`); a child process is the record
 * of what its `dup2` calls connect and which signal set-up it gets.
 */
module Executor {
  import opened Wrappers
  import opened Parse
  import opened Stages
  import opened Descriptors

  /** The size of the fixed `pids` array. */
  const MAX_PIDS := 20

  /** The operating system's answers for one command. */
  datatype Os = Os(
    inOpens: bool,         // open(rstdin, O_RDONLY) succeeds
    outOpens: bool,        // open(rstdout, O_WRONLY | O_CREAT) succeeds
    pipeFails: set<nat>,   // stages whose pipe() returns -1
    forkFails: set<nat>,   // stages whose fork() returns -1
    dirs: set<string>,     // the paths chdir accepts
    firstPid: nat)         // fork() for stage i returns firstPid + 1 + i

  function Pid(os: Os, i: nat): int
  {
    os.firstPid + 1 + i
  }

  /** How a child treats interrupts: its own process group, or the default SIGINT action. */
  datatype Disposition = OwnGroup | DefaultInterrupt

  function DispositionFor(background: bool): Disposition
  {
    if background then OwnGroup else DefaultInterrupt
  }

  /**
   * One forked stage. `stdin` and `stdout` are what its two `dup2` calls
   * install; `nextRead` is the read end of the pipe it writes into, which
   * the child closes and the next stage reads from (-1 for the last stage).
   */
  datatype Child = Child(
    stage: nat,
    argv: seq<string>,
    stdin: int,
    stdout: int,
    nextRead: int,
    disposition: Disposition,
    pid: int)

  /** The messages written to the error stream. */
  datatype Report =
    | CannotRead(path: string)
    | CannotWrite(path: string)
    | CannotCd(target: Option<string>)
    | PipeFailure
    | ForkFailure

  /** Shell-wide state a command can change: the `done` flag, the working directory, the error stream. */
  datatype Session = Session(done: bool, cwd: string, reports: seq<Report>)

  /** Where control stands: still launching / finished launching, or the `goto cleanup` that was taken. */
  datatype Status = Running | OpenFailed | PipeFailed(stage: nat) | ForkFailed(stage: nat)

  /** The code as written, or with the repairs listed under the findings. */
  datatype Variant = AsWritten | Repaired

  /** The local variables of `handle_command` together with the parent's descriptor table. */
  datatype Exec = Exec(
    fdin: int,
    fdout: int,
    prevRead: int,
    prevWrite: int,
    fds: Table,
    children: seq<Child>,
    pids: seq<Option<int>>,   // the pids array; None is a slot never assigned
    waits: seq<Option<int>>,  // the pid each waitpid call is given
    session: Session,
    status: Status)

  /** The uninitialised `pid_t pids[20]`. */
  function Unassigned(): seq<Option<int>>
  {
    seq(MAX_PIDS, _ => None)
  }

  predicate IsBuiltin(argv: seq<string>)
    requires |argv| > 0
  {
    argv[0] == "exit" || argv[0] == "cd"
  }

  /** The directory `cd` is asked for: `pgmlist[1]`, or NULL when `cd` has no argument. */
  function CdTarget(argv: seq<string>): Option<string>
  {
    if |argv| > 1 then Some(argv[1]) else None
  }

  /**
   * The built-in dispatch for one stage: `exit` sets `done`; `cd` moves the
   * working directory when chdir accepts the path and otherwise only reports;
   * any other program leaves the session alone.
   */
  function Builtin(argv: seq<string>, os: Os, s: Session): (r: Session)
    requires |argv| > 0
    ensures !IsBuiltin(argv) ==> r == s
    ensures argv[0] == "exit" ==> r == s.(done := true)
    ensures argv[0] == "cd" && CdTarget(argv).Some? && CdTarget(argv).value in os.dirs
            ==> r == s.(cwd := CdTarget(argv).value)
    ensures argv[0] == "cd" && !(CdTarget(argv).Some? && CdTarget(argv).value in os.dirs)
            ==> r == s.(reports := s.reports + [CannotCd(CdTarget(argv))])
  {
    if argv[0] == "exit" then s.(done := true)
    else if argv[0] == "cd" then
      var target := CdTarget(argv);
      if target.Some? && target.value in os.dirs then s.(cwd := target.value)
      else s.(reports := s.reports + [CannotCd(target)])
    else s
  }

  /**
   * Lines 84-129: the two redirections are opened (the output one even when
   * the input one already failed), then checked in order; on success the
   * trailing pair starts as (fdin, -1).
   */
  function Begin(cmd: Command, os: Os, open0: set<int>, session: Session): (st: Exec)
    requires StdioOpen(open0)
    ensures st.children == [] && st.waits == [] && st.pids == Unassigned()
    ensures st.fds.closes == [] && st.fds.strays == [] && open0 <= st.fds.open
    ensures cmd.rstdin.None? ==> st.fdin == STDIN
    ensures cmd.rstdin.Some? ==> st.fdin == (if os.inOpens then LowestFree(open0) else NO_FD)
    ensures cmd.rstdout.None? ==> st.fdout == STDOUT
    ensures cmd.rstdout.Some? && os.outOpens ==> st.fdout > 2 && st.fdout !in open0 && st.fdout != st.fdin
    ensures cmd.rstdout.Some? && !os.outOpens ==> st.fdout == NO_FD
    ensures st.fds.open == open0 + Guarded({st.fdin, st.fdout})
    ensures cmd.rstdin.Some? && !os.inOpens
            ==> st.status == OpenFailed
                && st.session == session.(reports := session.reports + [CannotRead(cmd.rstdin.value)])
    ensures !(cmd.rstdin.Some? && !os.inOpens) && cmd.rstdout.Some? && !os.outOpens
            ==> st.status == OpenFailed
                && st.session == session.(reports := session.reports + [CannotWrite(cmd.rstdout.value)])
    ensures st.status == OpenFailed ==> st.prevRead == STDIN && st.prevWrite == NO_FD
    ensures st.status != OpenFailed
            ==> st.status == Running && st.session == session
                && st.prevRead == st.fdin && st.prevWrite == NO_FD
  {
    var t0 := Table(open0, [], []);
    var fdin := if cmd.rstdin.Some? then OpenFd(t0, os.inOpens) else STDIN;
    var t1 := if cmd.rstdin.Some? then AfterOpen(t0, os.inOpens) else t0;
    var fdout := if cmd.rstdout.Some? then OpenFd(t1, os.outOpens) else STDOUT;
    var t2 := if cmd.rstdout.Some? then AfterOpen(t1, os.outOpens) else t1;
    var st := Exec(fdin, fdout, STDIN, NO_FD, t2, [], Unassigned(), [], session, Running);
    if fdin == NO_FD then
      st.(session := session.(reports := session.reports + [CannotRead(cmd.rstdin.value)]),
          status := OpenFailed)
    else if fdout == NO_FD then
      st.(session := session.(reports := session.reports + [CannotWrite(cmd.rstdout.value)]),
          status := OpenFailed)
    else
      st.(prevRead := fdin, prevWrite := NO_FD)
  }

  /**
   * One iteration of the stage loop (lines 132-223) for stage `i` of the
   * execution-order array. A pipe is made only for a stage that is not last;
   * a failed `pipe` or `fork` takes the `goto cleanup`. The repaired variant
   * also closes the pipe it just made when the fork then fails.
   */
  function Step(st: Exec, stages: seq<Pgm>, i: nat, background: bool, os: Os, v: Variant): (r: Exec)
    requires Runnable(stages) && i < |stages| && i < |st.pids|
    requires st.status == Running
    ensures r.fdin == st.fdin && r.fdout == st.fdout && r.waits == st.waits
    ensures |r.pids| == |st.pids|
    ensures r.status == Running || r.status == PipeFailed(i) || r.status == ForkFailed(i)
    ensures r.status != Running
            ==> r.children == st.children && r.pids == st.pids
                && r.prevRead == st.prevRead && r.prevWrite == st.prevWrite
    ensures IsBuiltin(stages[i].pgmlist)
            ==> r == st.(session := Builtin(stages[i].pgmlist, os, st.session))
    ensures !IsBuiltin(stages[i].pgmlist) ==> r.session.done == st.session.done
                                              && r.session.cwd == st.session.cwd
    ensures r.status == Running && !IsBuiltin(stages[i].pgmlist)
            ==> |r.children| == |st.children| + 1
                && r.children[..|st.children|] == st.children
                && r.children[|st.children|].stdin == st.prevRead
  {
    var argv := stages[i].pgmlist;
    var last := i == |stages| - 1;
    if IsBuiltin(argv) then
      st.(session := Builtin(argv, os, st.session))
    else if !last && i in os.pipeFails then
      st.(session := st.session.(reports := st.session.reports + [PipeFailure]),
          status := PipeFailed(i))
    else
      var nextRead := if last then NO_FD else PipeRead(st.fds);
      var nextWrite := if last then st.fdout else PipeWrite(st.fds);
      var t := if last then st.fds else WithPipe(st.fds);
      if i in os.forkFails then
        var t' := if v == Repaired && !last then SafeClose(SafeClose(t, nextRead), nextWrite) else t;
        st.(fds := t',
            session := st.session.(reports := st.session.reports + [ForkFailure]),
            status := ForkFailed(i))
      else
        var child := Child(i, argv, st.prevRead, nextWrite, nextRead, DispositionFor(background), Pid(os, i));
        st.(fds := SafeClose(SafeClose(t, st.prevRead), st.prevWrite),
            prevRead := nextRead,
            prevWrite := nextWrite,
            children := st.children + [child],
            pids := st.pids[i := Some(Pid(os, i))])
  }

  /**
   * Lines 227-237: a foreground command waits on `pids[0..count)`, which as
   * written includes the slots of built-in stages that were never assigned;
   * the repaired wait goes through the pids that fork actually returned.
   */
  function Wait(st: Exec, count: nat, background: bool, v: Variant): (r: Exec)
    requires count <= |st.pids|
    ensures r == st.(waits := r.waits)
    ensures background ==> r.waits == st.waits
    ensures !background && v == AsWritten ==> r.waits == st.pids[..count]
    ensures !background && v == Repaired
            ==> |r.waits| == |st.children|
                && forall j :: 0 <= j < |st.children| ==> r.waits[j] == Some(st.children[j].pid)
  {
    if background then st
    else if v == AsWritten then st.(waits := st.pids[..count])
    else st.(waits := seq(|st.children|, j requires 0 <= j < |st.children| => Some(st.children[j].pid)))
  }

  /**
   * Lines 239-245: the descriptors cleanup hands to `safe_close`, in order.
   * As written, all four bookkeeping descriptors, so a redirection descriptor
   * that was already closed as a trailing end is closed again. Repaired,
   * `fdin` only while no child has taken it over (the first fork closes it
   * as the trailing read end), `fdout` only when it is not the trailing
   * write end, and the trailing read end only when it is not that same
   * unhanded `fdin` (a built-in or an early failure leaves it there).
   */
  function Released(st: Exec, v: Variant): (s: seq<int>)
    ensures forall fd :: fd in s ==> fd in {st.fdin, st.fdout, st.prevRead, st.prevWrite}
    ensures st.prevWrite in s
    ensures v == AsWritten ==> s == [st.fdin, st.fdout, st.prevRead, st.prevWrite]
  {
    if v == AsWritten then [st.fdin, st.fdout, st.prevRead, st.prevWrite]
    else
      var handedIn := st.children != [];
      (if handedIn then [] else [st.fdin])
      + (if st.fdout == st.prevWrite then [] else [st.fdout])
      + (if !handedIn && st.prevRead == st.fdin then [] else [st.prevRead])
      + [st.prevWrite]
  }

  function Cleanup(st: Exec, v: Variant): (r: Exec)
  {
    st.(fds := CloseAll(st.fds, Released(st, v)))
  }
}

=== FILE: findings.dfy ===
/**
 * Concrete commands on which `handle_command` as written misbehaves, each
 * run once as written and once repaired.
 */
module Findings {
  import opened Wrappers
  import opened Parse
  import opened Stages
  import opened Descriptors
  import opened Executor
  import opened Pipeline

  /** A parent holding only the three standard streams. */
  const STANDARD: set<int> := {0, 1, 2}

  /** An operating system where every call succeeds; `/tmp` is the only directory. */
  const KIND: Os := Os(true, true, {}, {}, {"/tmp"}, 100)

  /** The same, except that the fork for stage 0 fails. */
  const NO_FIRST_FORK: Os := Os(true, true, {}, {0}, {"/tmp"}, 100)

  /** The same, except that the fork for stage 1 fails. */
  const NO_SECOND_FORK: Os := Os(true, true, {}, {1}, {"/tmp"}, 100)

  const START: Session := Session(false, "/", [])

  /** `cat < in`, in the foreground. */
  const CAT_IN: Command := Command(Node(["cat"], Nil), Some("in"), None, None, false)

  /** `echo > out`, in the foreground. */
  const ECHO_OUT: Command := Command(Node(["echo"], Nil), None, Some("out"), None, false)

  /** `ls | wc`, in the foreground; the parser puts the last stage first. */
  const LS_WC: Command := Command(Node(["wc"], Node(["ls"], Nil)), None, None, None, false)

  /** `cd /tmp < in`, in the foreground: a built-in with a redirected input. */
  const CD_TMP_IN: Command := Command(Node(["cd", "/tmp"], Nil), Some("in"), None, None, false)

  /** `cat < in | a | b`, in the foreground. */
  const CAT_A_B: Command := Command(Node(["b"], Node(["a"], Node(["cat"], Nil))), Some("in"), None, None, false)

  /** `cd /tmp`, in the foreground. */
  const CD_TMP: Command := Command(Node(["cd", "/tmp"], Nil), None, None, None, false)

  lemma FirstFreeIsThree()
    ensures LowestFree(STANDARD) == 3
    ensures LowestFree(STANDARD + {3}) == 4
  {
    var s := STANDARD + {3};
    assert 3 in s && 4 !in s;
  }

  /** A command whose redirections open runs its loop from `Begin` and cleans up what the loop left. */
  lemma RunFrom(cmd: Command, os: Os, v: Variant, last: Exec)
    requires cmd.pgm.Node? && WellFormed(cmd.pgm) && |Nodes(cmd.pgm)| <= MAX_PIDS
    requires Runnable(ExecutionOrder(cmd.pgm)) && |ExecutionOrder(cmd.pgm)| == |Nodes(cmd.pgm)|
    requires Begin(cmd, os, STANDARD, START).status != OpenFailed
    requires Loop(Begin(cmd, os, STANDARD, START), ExecutionOrder(cmd.pgm), 0, cmd.background, os, v) == last
    ensures Run(cmd, os, STANDARD, START, v)
            == Cleanup(Waiting(last, |Nodes(cmd.pgm)|, cmd.background, v), v)
  {
  }

  /** Cleanup of `echo > out` as written: 3 is closed at line 243, then again at line 245. */
  lemma EchoCloses()
    ensures CloseAll(Table({0, 1, 2, 3}, [], []), [0, 3, NO_FD, 3]) == Table({0, 1, 2}, [3, 3], [3])
  {
    var t := Table({0, 1, 2, 3}, [], []);
    var once := Table({0, 1, 2}, [3], []);
    var twice := Table({0, 1, 2}, [3, 3], [3]);
    assert SafeClose(t, 3) == once;
    assert SafeClose(once, 3) == twice;
    assert CloseAll(once, [NO_FD, 3]) == twice by {
      assert CloseAll(once, [3]) == CloseAll(twice, []);
    }
    assert CloseAll(t, [0, 3, NO_FD, 3]) == CloseAll(once, [NO_FD, 3]) by {
      assert CloseAll(t, [3, NO_FD, 3]) == CloseAll(once, [NO_FD, 3]);
    }
  }

  /** Cleanup of `echo > out` repaired: 3 is closed once. */
  lemma EchoClosesOnce()
    ensures CloseAll(Table({0, 1, 2, 3}, [], []), [NO_FD, 3]) == Table({0, 1, 2}, [3], [])
  {
    var t := Table({0, 1, 2, 3}, [], []);
    var once := Table({0, 1, 2}, [3], []);
    assert SafeClose(t, 3) == once;
    assert CloseAll(t, [3]) == CloseAll(once, []);
  }

  /** Cleanup of `cat < in` as written: 3, already closed by the loop, is closed again at line 242. */
  lemma CatCloses()
    ensures CloseAll(Table({0, 1, 2}, [3], []), [3, 1, NO_FD, 1]) == Table({0, 1, 2}, [3, 3], [3])
  {
    var once := Table({0, 1, 2}, [3], []);
    var twice := Table({0, 1, 2}, [3, 3], [3]);
    assert SafeClose(once, 3) == twice;
    assert CloseAll(once, [3, 1, NO_FD, 1]) == CloseAll(twice, [1, NO_FD, 1]);
    assert CloseAll(twice, [1, NO_FD, 1]) == CloseAll(twice, [NO_FD, 1]);
    assert CloseAll(twice, [NO_FD, 1]) == CloseAll(twice, [1]) == CloseAll(twice, []);
  }

  /** Cleanup of `cat < in` repaired closes nothing more. */
  lemma CatClosesNothing()
    ensures CloseAll(Table({0, 1, 2}, [3], []), [NO_FD, 1]) == Table({0, 1, 2}, [3], [])
  {
    var once := Table({0, 1, 2}, [3], []);
    assert CloseAll(once, [1]) == CloseAll(once, []);
  }

  /** Nothing in the released lists after the failed fork is above 1. */
  lemma CloseNothing(t: Table)
    ensures CloseAll(t, [0, 1, 0, NO_FD]) == t
    ensures CloseAll(t, [0, 1, NO_FD]) == t
  {
    assert CloseAll(t, [NO_FD]) == CloseAll(t, []);
    assert CloseAll(t, [0, NO_FD]) == CloseAll(t, [NO_FD]);
    assert CloseAll(t, [1, 0, NO_FD]) == CloseAll(t, [0, NO_FD]);
    assert CloseAll(t, [1, NO_FD]) == CloseAll(t, [NO_FD]);
  }

  /** Repaired cleanup after a child took `fdin` over, with `fdout` not the trailing write end. */
  lemma ReleasedAfterHandover(w: Exec)
    requires w.children != [] && w.fdout != w.prevWrite
    ensures Released(w, Repaired) == [w.fdout, w.prevRead, w.prevWrite]
  {
  }

  /** Repaired cleanup after the last child took `fdout` over as the trailing write end. */
  lemma ReleasedOutputHandover(w: Exec)
    requires w.children != [] && w.fdout == w.prevWrite
    ensures Released(w, Repaired) == [w.prevRead, w.prevWrite]
  {
  }

  /** Repaired cleanup when no child took `fdin` over and it is still the trailing read end. */
  lemma ReleasedKeptInput(w: Exec)
    requires w.children == [] && w.fdout != w.prevWrite && w.prevRead == w.fdin
    ensures Released(w, Repaired) == [w.fdin, w.fdout, w.prevWrite]
  {
  }

  /** A single node with a program name is its own execution order. */
  lemma SingleStageOrder(p: Pgm)
    requires p.Node? && p.next == Nil && |p.pgmlist| > 0
    ensures Nodes(p) == [p] && WellFormed(p) && Runnable([p]) && ExecutionOrder(p) == [p]
  {
    assert Nodes(p) == [p];
    assert Reverse([p]) == [p];
  }

  /** The loop over one stage runs it once. */
  lemma SingleStageLoop(st: Exec, p: Pgm, background: bool, os: Os, v: Variant)
    requires Runnable([p]) && st.status == Running && |st.pids| == MAX_PIDS
    ensures Loop(st, [p], 0, background, os, v) == Step(st, [p], 0, background, os, v)
  {
    LoopTurn(st, [p], 0, background, os, v);
    LoopTurn(Step(st, [p], 0, background, os, v), [p], 1, background, os, v);
  }

  /** A one-stage command whose redirections open runs that stage once, waits, and cleans up. */
  lemma SingleStageRun(cmd: Command, os: Os, v: Variant)
    requires cmd.pgm.Node? && cmd.pgm.next == Nil && |cmd.pgm.pgmlist| > 0
    requires Begin(cmd, os, STANDARD, START).status == Running
    ensures Runnable([cmd.pgm]) && |Begin(cmd, os, STANDARD, START).pids| == MAX_PIDS
    ensures Run(cmd, os, STANDARD, START, v)
            == Cleanup(Waiting(Step(Begin(cmd, os, STANDARD, START), [cmd.pgm], 0, cmd.background, os, v),
                               1, cmd.background, v), v)
  {
    SingleStageOrder(cmd.pgm);
    var st := Begin(cmd, os, STANDARD, START);
    SingleStageLoop(st, cmd.pgm, cmd.background, os, v);
    RunFrom(cmd, os, v, Step(st, [cmd.pgm], 0, cmd.background, os, v));
  }

  /** `cat < in` opens the input as 3 and starts the loop with the trailing pair (3, -1). */
  lemma CatBegin()
    ensures var st := Begin(CAT_IN, KIND, STANDARD, START);
            && st.status == Running && |st.pids| == MAX_PIDS
            && st.fdin == 3 && st.fdout == 1 && st.prevRead == 3 && st.prevWrite == NO_FD
            && st.fds == Table({0, 1, 2, 3}, [], [])
  {
    FirstFreeIsThree();
  }

  /** Its one stage forks `cat` on 3, and the parent then closes 3. */
  lemma CatStep(st: Exec, v: Variant)
    requires st.status == Running && |st.pids| == MAX_PIDS
    requires st.fdin == 3 && st.fdout == 1 && st.prevRead == 3 && st.prevWrite == NO_FD
    requires st.fds == Table({0, 1, 2, 3}, [], [])
    ensures Runnable([CAT_IN.pgm])
    ensures var a := Step(st, [CAT_IN.pgm], 0, false, KIND, v);
            && a.fds == Table({0, 1, 2}, [3], []) && a.status == Running && a.children != []
            && a.fdin == 3 && a.fdout == 1 && a.prevRead == NO_FD && a.prevWrite == 1
  {
    assert !IsBuiltin(CAT_IN.pgm.pgmlist);
    assert SafeClose(st.fds, 3) == Table({0, 1, 2}, [3], []);
  }

  /** What `cat < in` leaves for cleanup: 3 was handed to the child and closed; the trailing pair is (-1, 1). */
  lemma CatLeft(v: Variant) returns (w: Exec)
    ensures Run(CAT_IN, KIND, STANDARD, START, v) == Cleanup(w, v)
    ensures w.fds == Table({0, 1, 2}, [3], [])
    ensures w.fdin == 3 && w.fdout == 1 && w.prevRead == NO_FD && w.prevWrite == 1 && w.children != []
  {
    CatBegin();
    SingleStageRun(CAT_IN, KIND, v);
    var st := Begin(CAT_IN, KIND, STANDARD, START);
    CatStep(st, v);
    w := Waiting(Step(st, [CAT_IN.pgm], 0, false, KIND, v), 1, false, v);
  }

  /** `echo > out` opens the output as 3 and starts the loop with the trailing pair (0, -1). */
  lemma EchoBegin()
    ensures var st := Begin(ECHO_OUT, KIND, STANDARD, START);
            && st.status == Running && |st.pids| == MAX_PIDS
            && st.fdin == 0 && st.fdout == 3 && st.prevRead == 0 && st.prevWrite == NO_FD
            && st.fds == Table({0, 1, 2, 3}, [], [])
  {
    FirstFreeIsThree();
  }

  /** Its one stage forks `echo` onto 3, and the parent keeps 3 as the trailing write end. */
  lemma EchoStep(st: Exec, v: Variant)
    requires st.status == Running && |st.pids| == MAX_PIDS
    requires st.fdin == 0 && st.fdout == 3 && st.prevRead == 0 && st.prevWrite == NO_FD
    requires st.fds == Table({0, 1, 2, 3}, [], [])
    ensures Runnable([ECHO_OUT.pgm])
    ensures var a := Step(st, [ECHO_OUT.pgm], 0, false, KIND, v);
            && a.fds == Table({0, 1, 2, 3}, [], []) && a.status == Running && a.children != []
            && a.fdin == 0 && a.fdout == 3 && a.prevRead == NO_FD && a.prevWrite == 3
  {
    assert !IsBuiltin(ECHO_OUT.pgm.pgmlist);
    assert SafeClose(SafeClose(st.fds, 0), NO_FD) == st.fds;
  }

  /** What `echo > out` leaves for cleanup: one child writing to `fdout` 3, which is also the trailing write end. */
  lemma EchoLeft(v: Variant) returns (w: Exec)
    ensures Run(ECHO_OUT, KIND, STANDARD, START, v) == Cleanup(w, v)
    ensures w.fds == Table({0, 1, 2, 3}, [], [])
    ensures w.fdin == 0 && w.fdout == 3 && w.prevRead == NO_FD && w.prevWrite == 3 && w.children != []
  {
    EchoBegin();
    SingleStageRun(ECHO_OUT, KIND, v);
    var st := Begin(ECHO_OUT, KIND, STANDARD, START);
    EchoStep(st, v);
    w := Waiting(Step(st, [ECHO_OUT.pgm], 0, false, KIND, v), 1, false, v);
  }

  /** `ls | wc` runs `ls`, then `wc`. */
  lemma LsWcOrder()
    ensures LS_WC.pgm.Node? && WellFormed(LS_WC.pgm) && |Nodes(LS_WC.pgm)| == 2
    ensures Runnable(ExecutionOrder(LS_WC.pgm)) && ExecutionOrder(LS_WC.pgm) == [LS_WC.pgm.next, LS_WC.pgm]
  {
    var b := LS_WC.pgm;
    assert Nodes(b.next) == [b.next];
    assert Nodes(b) == [b, b.next];
    ReverseIndex(Nodes(b));
  }

  /** `ls | wc` opens nothing and starts the loop with the trailing pair (0, -1). */
  lemma LsWcBegin()
    ensures var st := Begin(LS_WC, NO_FIRST_FORK, STANDARD, START);
            && st.status == Running && st.children == [] && |st.pids| == MAX_PIDS
            && st.fdin == 0 && st.fdout == 1 && st.prevRead == 0 && st.prevWrite == NO_FD
            && st.fds == Table(STANDARD, [], [])
  {
  }

  /** `ls` is not last and gets the pipe 3/4; its fork fails: as written the pipe stays open, repaired both ends are closed. */
  lemma LsWcStep(st: Exec, pgms: seq<Pgm>, v: Variant)
    requires pgms == [LS_WC.pgm.next, LS_WC.pgm]
    requires st.status == Running && st.children == [] && |st.pids| == MAX_PIDS
    requires st.fdin == 0 && st.fdout == 1 && st.prevRead == 0 && st.prevWrite == NO_FD
    requires st.fds == Table(STANDARD, [], [])
    ensures Runnable(pgms)
    ensures var a := Step(st, pgms, 0, false, NO_FIRST_FORK, v);
            && a.status == ForkFailed(0) && a.children == []
            && a.fdin == 0 && a.fdout == 1 && a.prevRead == 0 && a.prevWrite == NO_FD
            && (v == AsWritten ==> a.fds == Table({0, 1, 2, 3, 4}, [], []))
            && (v == Repaired ==> a.fds == Table(STANDARD, [3, 4], []))
  {
    FirstFreeIsThree();
    assert !IsBuiltin(LS_WC.pgm.next.pgmlist) && 0 !in NO_FIRST_FORK.pipeFails && 0 in NO_FIRST_FORK.forkFails;
    assert PipeRead(st.fds) == 3 && PipeWrite(st.fds) == 4;
    var piped := Table({0, 1, 2, 3, 4}, [], []);
    assert WithPipe(st.fds) == piped;
    assert SafeClose(piped, 3) == Table({0, 1, 2, 4}, [3], []);
    assert SafeClose(Table({0, 1, 2, 4}, [3], []), 4) == Table(STANDARD, [3, 4], []);
  }

  /** The loop over `ls | wc` stops at the failed fork for `ls`. */
  lemma LsWcLoop(v: Variant) returns (w: Exec)
    ensures Runnable(ExecutionOrder(LS_WC.pgm)) && |ExecutionOrder(LS_WC.pgm)| == 2
    ensures Begin(LS_WC, NO_FIRST_FORK, STANDARD, START).status == Running
    ensures |Begin(LS_WC, NO_FIRST_FORK, STANDARD, START).pids| == MAX_PIDS
    ensures Loop(Begin(LS_WC, NO_FIRST_FORK, STANDARD, START), ExecutionOrder(LS_WC.pgm), 0, false, NO_FIRST_FORK, v) == w
    ensures w.status == ForkFailed(0) && w.children == []
    ensures w.fdin == 0 && w.fdout == 1 && w.prevRead == 0 && w.prevWrite == NO_FD
    ensures v == AsWritten ==> w.fds == Table({0, 1, 2, 3, 4}, [], [])
    ensures v == Repaired ==> w.fds == Table(STANDARD, [3, 4], [])
  {
    LsWcOrder();
    LsWcBegin();
    var os := NO_FIRST_FORK;
    var pgms := ExecutionOrder(LS_WC.pgm);
    var st := Begin(LS_WC, os, STANDARD, START);
    LsWcStep(st, pgms, v);
    var a := Step(st, pgms, 0, false, os, v);
    LoopTurn(st, pgms, 0, false, os, v);
    LoopTurn(a, pgms, 1, false, os, v);
    w := a;
  }

  /** What `ls | wc` leaves when the first fork fails: the pipe 3/4 is open and not the trailing pair. */
  lemma LsWcLeft(v: Variant) returns (w: Exec)
    ensures Run(LS_WC, NO_FIRST_FORK, STANDARD, START, v) == Cleanup(w, v)
    ensures w.status == ForkFailed(0) && w.children == []
    ensures w.fdin == 0 && w.fdout == 1 && w.prevRead == 0 && w.prevWrite == NO_FD
    ensures v == AsWritten ==> w.fds == Table({0, 1, 2, 3, 4}, [], [])
    ensures v == Repaired ==> w.fds == Table(STANDARD, [3, 4], [])
  {
    LsWcOrder();
    w := LsWcLoop(v);
    RunFrom(LS_WC, NO_FIRST_FORK, v, w);
  }

  /** The first slot of the uninitialised pid array. */
  lemma UnassignedFirst()
    ensures Unassigned()[..1] == [None]
  {
    assert Unassigned()[0] == None;
  }

  /** `cd /tmp` opens nothing and starts the loop with nothing forked. */
  lemma CdBegin()
    ensures var st := Begin(CD_TMP, KIND, STANDARD, START);
            && st.status == Running && st.session == START && st.pids == Unassigned() && st.children == []
  {
  }

  /** The one stage of `cd /tmp` is the built-in, and `/tmp` is a directory. */
  lemma CdBuiltin()
    ensures Runnable([CD_TMP.pgm]) && IsBuiltin(CD_TMP.pgm.pgmlist)
    ensures Builtin(CD_TMP.pgm.pgmlist, KIND, START) == START.(cwd := "/tmp")
  {
    var argv := CD_TMP.pgm.pgmlist;
    assert argv[0] == "cd" && argv[0] != "exit";
    assert CdTarget(argv) == Some("/tmp") && "/tmp" in KIND.dirs;
  }

  /** Running that stage moves the working directory and touches nothing else. */
  lemma CdStep(st: Exec, v: Variant)
    requires st.status == Running && |st.pids| == MAX_PIDS && st.session == START
    ensures Runnable([CD_TMP.pgm])
    ensures Step(st, [CD_TMP.pgm], 0, false, KIND, v) == st.(session := START.(cwd := "/tmp"))
  {
    CdBuiltin();
  }

  /** What `cd /tmp` leaves: the working directory moved, no child, and the foreground wait done. */
  lemma CdLeft(v: Variant) returns (w: Exec)
    ensures Run(CD_TMP, KIND, STANDARD, START, v) == Cleanup(w, v)
    ensures w.session.cwd == "/tmp" && w.children == []
    ensures v == AsWritten ==> w.waits == [None]
    ensures v == Repaired ==> w.waits == []
  {
    CdBegin();
    SingleStageRun(CD_TMP, KIND, v);
    var st := Begin(CD_TMP, KIND, STANDARD, START);
    CdStep(st, v);
    var a := Step(st, [CD_TMP.pgm], 0, false, KIND, v);
    UnassignedFirst();
    w := Waiting(a, 1, false, v);
  }

  /** `cd /tmp < in` opens the input as 3; its one stage is the built-in. */
  lemma CdInBegin()
    ensures CD_TMP_IN.pgm == CD_TMP.pgm
    ensures var st := Begin(CD_TMP_IN, KIND, STANDARD, START);
            && st.status == Running && st.session == START && st.children == [] && |st.pids| == MAX_PIDS
            && st.fdin == 3 && st.fdout == 1 && st.prevRead == 3 && st.prevWrite == NO_FD
            && st.fds == Table({0, 1, 2, 3}, [], [])
  {
    FirstFreeIsThree();
  }

  /** What `cd /tmp < in` leaves: no child took 3, so it is still open and still the trailing read end. */
  lemma CdInLeft(v: Variant) returns (w: Exec)
    ensures Run(CD_TMP_IN, KIND, STANDARD, START, v) == Cleanup(w, v)
    ensures w.fds == Table({0, 1, 2, 3}, [], []) && w.children == []
    ensures w.fdin == 3 && w.fdout == 1 && w.prevRead == 3 && w.prevWrite == NO_FD
  {
    CdInBegin();
    SingleStageRun(CD_TMP_IN, KIND, v);
    var st := Begin(CD_TMP_IN, KIND, STANDARD, START);
    CdStep(st, v);
    w := Waiting(Step(st, [CD_TMP.pgm], 0, false, KIND, v), 1, false, v);
  }

  /** Cleanup of `cd /tmp < in` as written: 3 is closed as `fdin` at line 242 and again as the trailing read end at line 244. */
  lemma CdInCloses()
    ensures CloseAll(Table({0, 1, 2, 3}, [], []), [3, 1, 3, NO_FD]) == Table({0, 1, 2}, [3, 3], [3])
  {
    var t := Table({0, 1, 2, 3}, [], []);
    var once := Table({0, 1, 2}, [3], []);
    var twice := Table({0, 1, 2}, [3, 3], [3]);
    assert SafeClose(t, 3) == once && SafeClose(once, 3) == twice;
    assert CloseAll(twice, [NO_FD]) == CloseAll(twice, []);
    assert CloseAll(once, [3, NO_FD]) == CloseAll(twice, [NO_FD]);
    assert CloseAll(once, [1, 3, NO_FD]) == CloseAll(once, [3, NO_FD]);
    assert CloseAll(t, [3, 1, 3, NO_FD]) == CloseAll(once, [1, 3, NO_FD]);
  }

  /** Cleanup of `cd /tmp < in` repaired: 3 is closed once. */
  lemma CdInClosesOnce()
    ensures CloseAll(Table({0, 1, 2, 3}, [], []), [3, 1, NO_FD]) == Table({0, 1, 2}, [3], [])
  {
    var t := Table({0, 1, 2, 3}, [], []);
    var once := Table({0, 1, 2}, [3], []);
    assert SafeClose(t, 3) == once;
    assert CloseAll(once, [NO_FD]) == CloseAll(once, []);
    assert CloseAll(once, [1, NO_FD]) == CloseAll(once, [NO_FD]);
    assert CloseAll(t, [3, 1, NO_FD]) == CloseAll(once, [1, NO_FD]);
  }

  /**
   * `cd /tmp < in` as written: no child takes the input over, so the
   * trailing read end is still `fdin` (line 128), and cleanup closes 3 at
   * line 242 and again at line 244, when it is no longer open.
   */
  lemma KeptInputClosedTwice()
    ensures Run(CD_TMP_IN, KIND, STANDARD, START, AsWritten).fds == Table({0, 1, 2}, [3, 3], [3])
  {
    var w := CdInLeft(AsWritten);
    var released := Released(w, AsWritten);
    assert released == [3, 1, 3, NO_FD];
    CdInCloses();
    assert Cleanup(w, AsWritten).fds == CloseAll(w.fds, released);
  }

  /** `cd /tmp < in` repaired: 3 is closed once. */
  lemma KeptInputClosedOnce()
    ensures Run(CD_TMP_IN, KIND, STANDARD, START, Repaired).fds == Table({0, 1, 2}, [3], [])
  {
    var w := CdInLeft(Repaired);
    ReleasedKeptInput(w);
    var released := Released(w, Repaired);
    assert released == [3, 1, NO_FD];
    CdInClosesOnce();
    assert Cleanup(w, Repaired).fds == CloseAll(w.fds, released);
  }

  /**
   * `cat < in` as written: the loop closes the input descriptor 3 once it
   * has been handed to the child (line 208), and cleanup closes `fdin` again
   * (line 242), when nothing is open under that number any more.
   */
  lemma DoubleCloseInput()
    ensures Run(CAT_IN, KIND, STANDARD, START, AsWritten).fds == Table({0, 1, 2}, [3, 3], [3])
  {
    var w := CatLeft(AsWritten);
    var released := Released(w, AsWritten);
    assert released == [3, 1, NO_FD, 1];
    CatCloses();
    assert Cleanup(w, AsWritten).fds == CloseAll(w.fds, released);
  }

  /** `cat < in` repaired: 3 is closed once, by the loop. */
  lemma SingleCloseInput()
    ensures Run(CAT_IN, KIND, STANDARD, START, Repaired).fds == Table({0, 1, 2}, [3], [])
  {
    var w := CatLeft(Repaired);
    ReleasedOutputHandover(w);
    var released := Released(w, Repaired);
    assert released == [NO_FD, 1];
    CatClosesNothing();
    assert Cleanup(w, Repaired).fds == CloseAll(w.fds, released);
  }

  /** The numbers `open` and `pipe` hand out along `cat < in | a | b`. */
  lemma CatABNumbers()
    ensures LowestFree({0, 1, 2, 3}) == 4 && LowestFree({0, 1, 2, 3, 4}) == 5
    ensures LowestFree({0, 1, 2, 4, 5}) == 3 && LowestFree({0, 1, 2, 3, 4, 5}) == 6
  {
    var s3: set<int> := {0, 1, 2, 3};
    var s4: set<int> := {0, 1, 2, 3, 4};
    var s5: set<int> := {0, 1, 2, 3, 4, 5};
    assert 3 in s3 && 4 !in s3;
    assert 3 in s4 && 4 in s4 && 5 !in s4;
    assert 3 in s5 && 4 in s5 && 5 in s5 && 6 !in s5;
  }

  /** `cat < in | a | b` runs `cat`, `a`, `b` in that order. */
  lemma CatABOrder()
    ensures CAT_A_B.pgm.Node? && WellFormed(CAT_A_B.pgm) && |Nodes(CAT_A_B.pgm)| == 3
    ensures Runnable(ExecutionOrder(CAT_A_B.pgm))
    ensures ExecutionOrder(CAT_A_B.pgm) == [CAT_A_B.pgm.next.next, CAT_A_B.pgm.next, CAT_A_B.pgm]
  {
    var b := CAT_A_B.pgm;
    assert Nodes(b.next.next) == [b.next.next];
    assert Nodes(b.next) == [b.next, b.next.next];
    assert Nodes(b) == [b, b.next, b.next.next];
    ReverseIndex(Nodes(b));
  }

  /** `cat < in | a | b` opens the input as 3 and starts the loop with the trailing pair (3, -1). */
  lemma CatABBegin()
    ensures var st := Begin(CAT_A_B, NO_SECOND_FORK, STANDARD, START);
            && st.status == Running && st.children == [] && |st.pids| == MAX_PIDS
            && st.fdin == 3 && st.fdout == 1 && st.prevRead == 3 && st.prevWrite == NO_FD
            && st.fds == Table({0, 1, 2, 3}, [], [])
  {
    FirstFreeIsThree();
  }

  /** `cat` forks on 3 with the pipe 4/5; the parent then closes 3, which becomes free again. */
  lemma CatABFirst(st: Exec, pgms: seq<Pgm>, v: Variant)
    requires pgms == [CAT_A_B.pgm.next.next, CAT_A_B.pgm.next, CAT_A_B.pgm]
    requires st.status == Running && |st.pids| == MAX_PIDS
    requires st.fdin == 3 && st.fdout == 1 && st.prevRead == 3 && st.prevWrite == NO_FD
    requires st.fds == Table({0, 1, 2, 3}, [], [])
    ensures Runnable(pgms)
    ensures var a := Step(st, pgms, 0, false, NO_SECOND_FORK, v);
            && a.status == Running && a.children != [] && |a.pids| == MAX_PIDS
            && a.fdin == 3 && a.fdout == 1 && a.prevRead == 4 && a.prevWrite == 5
            && a.fds == Table({0, 1, 2, 4, 5}, [3], [])
  {
    CatABNumbers();
    assert PipeRead(st.fds) == 4 && PipeWrite(st.fds) == 5;
    var piped := Table({0, 1, 2, 3, 4, 5}, [], []);
    assert WithPipe(st.fds) == piped;
    assert SafeClose(piped, 3) == Table({0, 1, 2, 4, 5}, [3], []);
  }

  /** `a` gets the pipe 3/6, and its fork fails: as written both ends stay open, repaired both are closed. */
  lemma CatABSecond(a: Exec, pgms: seq<Pgm>, v: Variant)
    requires pgms == [CAT_A_B.pgm.next.next, CAT_A_B.pgm.next, CAT_A_B.pgm]
    requires a.status == Running && a.children != [] && |a.pids| == MAX_PIDS
    requires a.fdin == 3 && a.fdout == 1 && a.prevRead == 4 && a.prevWrite == 5
    requires a.fds == Table({0, 1, 2, 4, 5}, [3], [])
    ensures Runnable(pgms)
    ensures var b := Step(a, pgms, 1, false, NO_SECOND_FORK, v);
            && b.status == ForkFailed(1) && b.children != []
            && b.fdin == 3 && b.fdout == 1 && b.prevRead == 4 && b.prevWrite == 5
            && (v == AsWritten ==> b.fds == Table({0, 1, 2, 3, 4, 5, 6}, [3], []))
            && (v == Repaired ==> b.fds == Table({0, 1, 2, 4, 5}, [3, 3, 6], []))
  {
    CatABNumbers();
    assert PipeRead(a.fds) == 3;
    assert a.fds.open + {3} == {0, 1, 2, 3, 4, 5};
    var piped := Table({0, 1, 2, 3, 4, 5, 6}, [3], []);
    assert WithPipe(a.fds) == piped;
    assert SafeClose(piped, 3) == Table({0, 1, 2, 4, 5, 6}, [3, 3], []);
    assert SafeClose(Table({0, 1, 2, 4, 5, 6}, [3, 3], []), 6) == Table({0, 1, 2, 4, 5}, [3, 3, 6], []);
  }

  /** The loop over `cat < in | a | b` stops at the failed fork for `a`. */
  lemma CatABLoop(v: Variant) returns (w: Exec)
    ensures Runnable(ExecutionOrder(CAT_A_B.pgm)) && |ExecutionOrder(CAT_A_B.pgm)| == 3
    ensures Begin(CAT_A_B, NO_SECOND_FORK, STANDARD, START).status == Running
    ensures |Begin(CAT_A_B, NO_SECOND_FORK, STANDARD, START).pids| == MAX_PIDS
    ensures Loop(Begin(CAT_A_B, NO_SECOND_FORK, STANDARD, START), ExecutionOrder(CAT_A_B.pgm), 0, false, NO_SECOND_FORK, v) == w
    ensures w.status == ForkFailed(1) && w.children != []
    ensures w.fdin == 3 && w.fdout == 1 && w.prevRead == 4 && w.prevWrite == 5
    ensures v == AsWritten ==> w.fds == Table({0, 1, 2, 3, 4, 5, 6}, [3], [])
    ensures v == Repaired ==> w.fds == Table({0, 1, 2, 4, 5}, [3, 3, 6], [])
  {
    CatABOrder();
    CatABBegin();
    var os := NO_SECOND_FORK;
    var pgms := ExecutionOrder(CAT_A_B.pgm);
    var st := Begin(CAT_A_B, os, STANDARD, START);
    CatABFirst(st, pgms, v);
    var a := Step(st, pgms, 0, false, os, v);
    CatABSecond(a, pgms, v);
    var b := Step(a, pgms, 1, false, os, v);
    LoopTurn(st, pgms, 0, false, os, v);
    LoopTurn(a, pgms, 1, false, os, v);
    LoopTurn(b, pgms, 2, false, os, v);
    w := b;
  }

  /** What `cat < in | a | b` leaves for cleanup when the fork for `a` fails. */
  lemma CatABLeft(v: Variant) returns (w: Exec)
    ensures Run(CAT_A_B, NO_SECOND_FORK, STANDARD, START, v) == Cleanup(w, v)
    ensures w.status == ForkFailed(1) && w.children != []
    ensures w.fdin == 3 && w.fdout == 1 && w.prevRead == 4 && w.prevWrite == 5
    ensures v == AsWritten ==> w.fds == Table({0, 1, 2, 3, 4, 5, 6}, [3], [])
    ensures v == Repaired ==> w.fds == Table({0, 1, 2, 4, 5}, [3, 3, 6], [])
  {
    CatABOrder();
    w := CatABLoop(v);
    RunFrom(CAT_A_B, NO_SECOND_FORK, v, w);
  }

  /** Cleanup of `cat < in | a | b` as written: 3, now the new pipe's read end, is closed with the trailing pair. */
  lemma ReuseCloses()
    ensures CloseAll(Table({0, 1, 2, 3, 4, 5, 6}, [3], []), [3, 1, 4, 5]) == Table({0, 1, 2, 6}, [3, 3, 4, 5], [])
  {
    var t0 := Table({0, 1, 2, 3, 4, 5, 6}, [3], []);
    var t1 := Table({0, 1, 2, 4, 5, 6}, [3, 3], []);
    var t2 := Table({0, 1, 2, 5, 6}, [3, 3, 4], []);
    var t3 := Table({0, 1, 2, 6}, [3, 3, 4, 5], []);
    assert SafeClose(t0, 3) == t1 && SafeClose(t1, 4) == t2 && SafeClose(t2, 5) == t3;
    assert CloseAll(t2, [5]) == CloseAll(t3, []);
    assert CloseAll(t1, [4, 5]) == CloseAll(t2, [5]);
    assert CloseAll(t1, [1, 4, 5]) == CloseAll(t1, [4, 5]);
    assert CloseAll(t0, [3, 1, 4, 5]) == CloseAll(t1, [1, 4, 5]);
  }

  /** Cleanup of `cat < in | a | b` repaired: only the trailing pair 4/5 is left to close. */
  lemma ReuseClosesRepaired()
    ensures CloseAll(Table({0, 1, 2, 4, 5}, [3, 3, 6], []), [1, 4, 5]) == Table(STANDARD, [3, 3, 6, 4, 5], [])
  {
    var t0 := Table({0, 1, 2, 4, 5}, [3, 3, 6], []);
    var t1 := Table({0, 1, 2, 5}, [3, 3, 6, 4], []);
    var t2 := Table(STANDARD, [3, 3, 6, 4, 5], []);
    assert SafeClose(t0, 4) == t1 && SafeClose(t1, 5) == t2;
    assert CloseAll(t1, [5]) == CloseAll(t2, []);
    assert CloseAll(t0, [4, 5]) == CloseAll(t1, [5]);
    assert CloseAll(t0, [1, 4, 5]) == CloseAll(t0, [4, 5]);
  }

  /**
   * `cat < in | a | b` as written, where the fork for `a` fails: 3 was
   * closed after `cat` took it (line 208) and then reused for the read end
   * of the pipe made for `a`, so cleanup's `safe_close(fdin)` (line 242)
   * closes that live pipe end without any EBADF, while its write end 6 leaks.
   */
  lemma ReusedInputClosed()
    ensures Run(CAT_A_B, NO_SECOND_FORK, STANDARD, START, AsWritten).fds == Table({0, 1, 2, 6}, [3, 3, 4, 5], [])
  {
    var w := CatABLeft(AsWritten);
    var released := Released(w, AsWritten);
    assert released == [3, 1, 4, 5];
    ReuseCloses();
    assert Cleanup(w, AsWritten).fds == CloseAll(w.fds, released);
  }

  /** `cat < in | a | b` repaired: the new pipe and the trailing pair are closed, and only the standard streams stay. */
  lemma ReusedInputKept()
    ensures Run(CAT_A_B, NO_SECOND_FORK, STANDARD, START, Repaired).fds == Table(STANDARD, [3, 3, 6, 4, 5], [])
  {
    var w := CatABLeft(Repaired);
    ReleasedAfterHandover(w);
    var released := Released(w, Repaired);
    ReuseClosesRepaired();
    assert Cleanup(w, Repaired).fds == CloseAll(w.fds, released);
  }

  /**
   * `echo > out` as written: the last stage writes to `fdout`, which then is
   * also the trailing write end, so cleanup closes it at line 243 and again
   * at line 245.
   */
  lemma DoubleCloseOutput()
    ensures Run(ECHO_OUT, KIND, STANDARD, START, AsWritten).fds == Table({0, 1, 2}, [3, 3], [3])
  {
    var w := EchoLeft(AsWritten);
    var released := Released(w, AsWritten);
    assert released == [0, 3, NO_FD, 3];
    EchoCloses();
    assert Cleanup(w, AsWritten).fds == CloseAll(w.fds, released);
  }

  /** `echo > out` repaired: 3 is closed once. */
  lemma SingleCloseOutput()
    ensures Run(ECHO_OUT, KIND, STANDARD, START, Repaired).fds == Table({0, 1, 2}, [3], [])
  {
    var w := EchoLeft(Repaired);
    ReleasedOutputHandover(w);
    var released := Released(w, Repaired);
    assert released == [NO_FD, 3];
    EchoClosesOnce();
    assert Cleanup(w, Repaired).fds == CloseAll(w.fds, released);
  }

  /**
   * `ls | wc` as written, where the first fork fails: the pipe 3/4 made for
   * it at line 158 is not yet the trailing pair, so the cleanup at lines
   * 242-245 never closes it and the parent keeps both ends.
   */
  lemma ForkFailureLeaksPipe()
    ensures Run(LS_WC, NO_FIRST_FORK, STANDARD, START, AsWritten).fds == Table({0, 1, 2, 3, 4}, [], [])
  {
    var w := LsWcLeft(AsWritten);
    var released := Released(w, AsWritten);
    assert released == [0, 1, 0, NO_FD];
    CloseNothing(w.fds);
    assert Cleanup(w, AsWritten).fds == CloseAll(w.fds, released);
  }

  /** `ls | wc` repaired: the fork-failure branch closes both ends of the new pipe. */
  lemma ForkFailureClosesPipe()
    ensures Run(LS_WC, NO_FIRST_FORK, STANDARD, START, Repaired).fds == Table(STANDARD, [3, 4], [])
  {
    var w := LsWcLeft(Repaired);
    ReleasedKeptInput(w);
    var released := Released(w, Repaired);
    assert released == [0, 1, NO_FD];
    CloseNothing(w.fds);
    assert Cleanup(w, Repaired).fds == CloseAll(w.fds, released);
  }

  /**
   * `cd /tmp` as written: no child is forked, yet the wait loop of lines
   * 229-236 hands `waitpid` the never-assigned `pids[0]`.
   */
  lemma WaitOnUnassignedPid()
    ensures Run(CD_TMP, KIND, STANDARD, START, AsWritten).waits == [None]
    ensures Run(CD_TMP, KIND, STANDARD, START, AsWritten).session.cwd == "/tmp"
  {
    var w := CdLeft(AsWritten);
  }

  /** `cd /tmp` repaired: there is nothing to wait for. */
  lemma WaitOnNothing()
    ensures Run(CD_TMP, KIND, STANDARD, START, Repaired).waits == []
    ensures Run(CD_TMP, KIND, STANDARD, START, Repaired).session.cwd == "/tmp"
  {
    var w := CdLeft(Repaired);
  }
}

=== FILE: handle.dfy ===
/**
 * `handle_command` as a loop over the execution-order array, with the
 * invariants that say how descriptors are owned and how stages are wired.
 */
module Handle {
  import opened Wrappers
  import opened Parse
  import opened Stages
  import opened Descriptors
  import opened Executor

  /** A number the command itself obtained from `open` or `pipe`: above 2 and not held before the call. */
  predicate Fresh(fd: int, open0: set<int>)
  {
    fd > 2 && fd !in open0
  }

  predicate Redirection(fd: int, std: int, open0: set<int>)
  {
    fd == std || fd == NO_FD || Fresh(fd, open0)
  }

  predicate TrailingEnd(fd: int, open0: set<int>)
  {
    fd == NO_FD || fd == STDIN || fd == STDOUT || Fresh(fd, open0)
  }

  /** Either stage `i`'s pipe failed, or its fork did. */
  predicate Fails(os: Os, i: nat, count: nat)
  {
    (i < count - 1 && i in os.pipeFails) || i in os.forkFails
  }

  /** Stage `k` is the first external stage whose `pipe` or `fork` fails. */
  predicate FirstFailure(stages: seq<Pgm>, os: Os, k: nat)
    requires Runnable(stages)
  {
    && k < |stages|
    && !IsBuiltin(stages[k].pgmlist)
    && Fails(os, k, |stages|)
    && forall j :: 0 <= j < k && !IsBuiltin(stages[j].pgmlist) ==> !Fails(os, j, |stages|)
  }

  /** The number of stages the loop got through before `goto cleanup` (all of them when it finished). */
  function Upto(status: Status, n: nat): nat
  {
    match status
    case Running => n
    case OpenFailed => 0
    case PipeFailed(k) => k
    case ForkFailed(k) => k
  }

  /** The error-stream line a stage failure adds. */
  function FailureReport(status: Status): seq<Report>
  {
    match status
    case PipeFailed(_) => [PipeFailure]
    case ForkFailed(_) => [ForkFailure]
    case _ => []
  }

  /** The indices of the external stages among the first `n`, in order. */
  function External(stages: seq<Pgm>, n: nat): seq<nat>
    requires Runnable(stages) && n <= |stages|
  {
    if n == 0 then []
    else External(stages, n - 1) + (if IsBuiltin(stages[n - 1].pgmlist) then [] else [n - 1])
  }

  /** `External` lists exactly the external stages below `n`, in increasing order. */
  lemma {:induction false} ExternalFacts(stages: seq<Pgm>, n: nat)
    requires Runnable(stages) && n <= |stages|
    ensures forall k :: 0 <= k < |External(stages, n)| ==>
              External(stages, n)[k] < n && !IsBuiltin(stages[External(stages, n)[k]].pgmlist)
    ensures forall i :: 0 <= i < n && !IsBuiltin(stages[i].pgmlist) ==> i in External(stages, n)
    ensures forall j, k :: 0 <= j < k < |External(stages, n)| ==> External(stages, n)[j] < External(stages, n)[k]
  {
    if n > 0 {
      ExternalFacts(stages, n - 1);
    }
  }

  /** The stage index of each launched child, in launch order. */
  function StageIndices(children: seq<Child>): seq<nat>
  {
    seq(|children|, j requires 0 <= j < |children| => children[j].stage)
  }

  /** Launching one more child appends its stage index to the record. */
  lemma StageIndicesSnoc(cs: seq<Child>, c: Child)
    ensures StageIndices(cs + [c]) == StageIndices(cs) + [c.stage]
  {
  }

  /** The session after the built-ins among the first `n` stages have run. */
  function Dispatched(stages: seq<Pgm>, n: nat, os: Os, s: Session): Session
    requires Runnable(stages) && n <= |stages|
  {
    if n == 0 then s else Builtin(stages[n - 1].pgmlist, os, Dispatched(stages, n - 1, os, s))
  }

  /** Stage `j` is a `cd` whose `chdir` succeeds. */
  predicate Moves(stages: seq<Pgm>, j: nat, os: Os)
    requires Runnable(stages) && j < |stages|
  {
    var argv := stages[j].pgmlist;
    argv[0] == "cd" && CdTarget(argv).Some? && CdTarget(argv).value in os.dirs
  }

  /**
   * A launched stage: an external program with the pid its fork returned and
   * the signal set-up of the command; a stage that is not last writes into a
   * fresh pipe whose read end is kept for the next stage, and the last stage
   * writes to `fdout` with no read end left over. The pipe is made while the
   * stage's own input is still open, so neither of its ends is that input;
   * and no stage writes to the descriptor it reads.
   */
  predicate ChildOk(c: Child, stages: seq<Pgm>, fdout: int, open0: set<int>, background: bool, os: Os)
    requires Runnable(stages)
  {
    && c.stage < |stages|
    && c.argv == stages[c.stage].pgmlist
    && !IsBuiltin(c.argv)
    && c.pid == Pid(os, c.stage)
    && c.disposition == DispositionFor(background)
    && c.stdin != c.stdout
    && if c.stage == |stages| - 1 then c.nextRead == NO_FD && c.stdout == fdout
       else && Fresh(c.nextRead, open0) && Fresh(c.stdout, open0)
            && c.nextRead != c.stdout && c.nextRead != fdout && c.stdout != fdout
            && c.nextRead != c.stdin
  }

  predicate ChildrenOk(children: seq<Child>, stages: seq<Pgm>, n: nat, fdout: int,
                      open0: set<int>, background: bool, os: Os)
    requires Runnable(stages)
  {
    forall j :: 0 <= j < |children| ==>
      ChildOk(children[j], stages, fdout, open0, background, os) && children[j].stage < n
  }

  predicate PidTable(pids: seq<Option<int>>, stages: seq<Pgm>, m: nat, os: Os)
    requires Runnable(stages) && m <= |stages|
  {
    && |pids| == MAX_PIDS
    && forall k :: 0 <= k < MAX_PIDS ==>
         pids[k] == (if k < m && !IsBuiltin(stages[k].pgmlist) then Some(Pid(os, k)) else None)
  }

  /** The first child reads `fdin`; every later child reads the pipe its predecessor writes. */
  predicate Chained(children: seq<Child>, fdin: int)
  {
    && (|children| > 0 ==> children[0].stdin == fdin)
    && forall j :: 1 <= j < |children| ==> children[j].stdin == children[j - 1].nextRead
  }

  /** The trailing pair is what the newest child left behind, or (fdin, -1) before any fork. */
  predicate Trail(st: Exec)
  {
    if st.children == [] then st.prevRead == st.fdin && st.prevWrite == NO_FD
    else st.prevRead == st.children[|st.children| - 1].nextRead
         && st.prevWrite == st.children[|st.children| - 1].stdout
  }

  /** Stage bookkeeping after the loop has looked at stages `0..n)`. */
  predicate Wiring(st: Exec, stages: seq<Pgm>, n: nat, open0: set<int>, background: bool, os: Os)
    requires Runnable(stages) && n <= |stages|
  {
    && Upto(st.status, n) <= n
    && ChildrenOk(st.children, stages, n, st.fdout, open0, background, os)
    && Chained(st.children, st.fdin)
    && Trail(st)
    && StageIndices(st.children) == External(stages, Upto(st.status, n))
    && PidTable(st.pids, stages, Upto(st.status, n), os)
  }

  /** How far the loop got, and why it stopped if it stopped early. */
  predicate Progress(st: Exec, stages: seq<Pgm>, n: nat, os: Os)
    requires Runnable(stages) && n <= |stages|
  {
    && st.status != OpenFailed
    && (st.status == Running ==>
          forall j :: 0 <= j < n && !IsBuiltin(stages[j].pgmlist) ==> !Fails(os, j, |stages|))
    && (st.status.PipeFailed? ==>
          st.status.stage + 1 == n && FirstFailure(stages, os, st.status.stage)
          && st.status.stage < |stages| - 1 && st.status.stage in os.pipeFails)
    && (st.status.ForkFailed? ==>
          st.status.stage + 1 == n && FirstFailure(stages, os, st.status.stage)
          && st.status.stage in os.forkFails
          && !(st.status.stage < |stages| - 1 && st.status.stage in os.pipeFails))
  }

  /** The descriptors the parent holds on the command's behalf. */
  function Owned(st: Exec): set<int>
  {
    Guarded({st.fdout, st.prevRead, st.prevWrite} + (if st.children == [] then {st.fdin} else {}))
  }

  /** Facts that hold on every path, including the one that leaks. */
  predicate Sane(st: Exec, open0: set<int>)
  {
    && Redirection(st.fdin, STDIN, open0)
    && Redirection(st.fdout, STDOUT, open0)
    && (st.fdin > STDOUT ==> st.fdin != st.fdout)
    && (st.status != OpenFailed ==> st.fdin != NO_FD && st.fdout != NO_FD)
    && TrailingEnd(st.prevRead, open0)
    && TrailingEnd(st.prevWrite, open0)
    && open0 <= st.fds.open
    && forall k :: 0 <= k < |st.fds.closes| ==> Fresh(st.fds.closes[k], open0)
  }

  /** The shape of the trailing pair: (fdin, -1), a fresh pipe pair, or (-1, fdout) after the last fork. */
  predicate TrailPair(st: Exec, open0: set<int>)
  {
    if st.children == [] then st.prevRead == st.fdin && st.prevWrite == NO_FD
    else (st.prevRead == NO_FD && st.prevWrite == st.fdout)
         || (&& Fresh(st.prevRead, open0) && Fresh(st.prevWrite, open0)
             && st.prevRead != st.prevWrite && st.prevRead != st.fdout && st.prevWrite != st.fdout)
  }

  /** The parent holds exactly what it held before plus the command's live descriptors, and no close went astray. */
  predicate Holds(st: Exec, open0: set<int>)
  {
    && Sane(st, open0)
    && TrailPair(st, open0)
    && st.fds.open == open0 + Owned(st)
    && st.fds.strays == []
  }

  /** The as-written fork failure after a successful pipe, which leaves that pipe open. */
  predicate Leaky(st: Exec, v: Variant, count: nat)
  {
    v == AsWritten && st.status.ForkFailed? && st.status.stage < count - 1
  }
}

module HandleProofs {
  import opened Wrappers
  import opened Parse
  import opened Stages
  import opened Descriptors
  import opened Executor
  import opened Handle

  /** One stage keeps the parent's descriptor table in step with what the command owns. */
  lemma StepOwnership(st: Exec, stages: seq<Pgm>, i: nat, background: bool, os: Os, v: Variant, open0: set<int>)
    requires Runnable(stages) && i < |stages| && i < |st.pids|
    requires st.status == Running
    requires Holds(st, open0)
    requires st.prevRead != NO_FD
    ensures Sane(Step(st, stages, i, background, os, v), open0)
    ensures Holds(Step(st, stages, i, background, os, v), open0)
            || Leaky(Step(st, stages, i, background, os, v), v, |stages|)
  {
    var argv := stages[i].pgmlist;
    var r := Step(st, stages, i, background, os, v);
    var last := i == |stages| - 1;
    if IsBuiltin(argv) || (!last && i in os.pipeFails) {
      assert r.fds == st.fds && r.children == st.children;
    } else if i in os.forkFails {
      OwnershipForkFailed(st, stages, i, background, os, v, open0);
    } else if last {
      OwnershipLast(st, stages, i, background, os, v, open0);
    } else {
      OwnershipPiped(st, stages, i, background, os, v, open0);
    }
  }

  /** A failed fork launches nothing; only the as-written variant keeps the pipe it just made. */
  lemma OwnershipForkFailed(st: Exec, stages: seq<Pgm>, i: nat, background: bool, os: Os, v: Variant, open0: set<int>)
    requires Runnable(stages) && i < |stages| && i < |st.pids|
    requires st.status == Running && Holds(st, open0)
    requires !IsBuiltin(stages[i].pgmlist) && !(i < |stages| - 1 && i in os.pipeFails) && i in os.forkFails
    ensures Sane(Step(st, stages, i, background, os, v), open0)
    ensures Holds(Step(st, stages, i, background, os, v), open0)
            || Leaky(Step(st, stages, i, background, os, v), v, |stages|)
  {
    var r := Step(st, stages, i, background, os, v);
    assert r.children == st.children && r.prevRead == st.prevRead && r.prevWrite == st.prevWrite;
    if i < |stages| - 1 {
      var a := PipeRead(st.fds);
      var b := PipeWrite(st.fds);
      var t := WithPipe(st.fds);
      if v == Repaired {
        assert r.fds == SafeClose(SafeClose(t, a), b);
        assert r.fds.open == st.fds.open;
      }
    } else {
      assert r.fds == st.fds;
    }
  }

  /** The last stage hands the trailing pair to its child and leaves (-1, fdout). */
  lemma OwnershipLast(st: Exec, stages: seq<Pgm>, i: nat, background: bool, os: Os, v: Variant, open0: set<int>)
    requires Runnable(stages) && i < |stages| && i < |st.pids|
    requires st.status == Running && Holds(st, open0) && st.prevRead != NO_FD
    requires !IsBuiltin(stages[i].pgmlist) && i == |stages| - 1 && i !in os.forkFails
    ensures Sane(Step(st, stages, i, background, os, v), open0)
    ensures Holds(Step(st, stages, i, background, os, v), open0)
  {
    var r := Step(st, stages, i, background, os, v);
    assert r.fds == SafeClose(SafeClose(st.fds, st.prevRead), st.prevWrite);
    assert Owned(st) == Guarded({st.fdout}) + Guarded({st.prevRead, st.prevWrite});
    assert Guarded({st.fdout}) !! Guarded({st.prevRead, st.prevWrite});
    ClosePair(st.fds, open0 + Guarded({st.fdout}), st.prevRead, st.prevWrite);
    assert Owned(r) == Guarded({st.fdout});
  }

  /** A middle stage hands the trailing pair to its child and keeps the new pipe as the trailing pair. */
  lemma OwnershipPiped(st: Exec, stages: seq<Pgm>, i: nat, background: bool, os: Os, v: Variant, open0: set<int>)
    requires Runnable(stages) && i < |stages| && i < |st.pids|
    requires st.status == Running && Holds(st, open0) && st.prevRead != NO_FD
    requires !IsBuiltin(stages[i].pgmlist) && i < |stages| - 1 && i !in os.pipeFails && i !in os.forkFails
    ensures Sane(Step(st, stages, i, background, os, v), open0)
    ensures Holds(Step(st, stages, i, background, os, v), open0)
  {
    var r := Step(st, stages, i, background, os, v);
    var a := PipeRead(st.fds);
    var b := PipeWrite(st.fds);
    var t := WithPipe(st.fds);
    assert r.fds == SafeClose(SafeClose(t, st.prevRead), st.prevWrite);
    assert r.prevRead == a && r.prevWrite == b;
    assert Owned(st) == Guarded({st.fdout}) + Guarded({st.prevRead, st.prevWrite});
    assert Guarded({st.fdout}) !! Guarded({st.prevRead, st.prevWrite});
    assert a != st.fdout && b != st.fdout;
    ClosePair(t, open0 + Guarded({st.fdout}) + {a, b}, st.prevRead, st.prevWrite);
    assert Owned(r) == Guarded({st.fdout}) + {a, b};
  }

  lemma ExternalStep(stages: seq<Pgm>, n: nat)
    requires Runnable(stages) && n < |stages|
    ensures External(stages, n + 1)
            == External(stages, n) + (if IsBuiltin(stages[n].pgmlist) then [] else [n])
  {
  }

  /** A built-in stage or a failing one leaves the children and the pid table alone. */
  lemma StepWiringIdle(st: Exec, stages: seq<Pgm>, i: nat, background: bool, os: Os, v: Variant, open0: set<int>)
    requires Runnable(stages) && i < |stages| && |stages| <= MAX_PIDS
    requires st.status == Running && Wiring(st, stages, i, open0, background, os)
    requires Step(st, stages, i, background, os, v).children == st.children
    ensures Wiring(Step(st, stages, i, background, os, v), stages, i + 1, open0, background, os)
  {
    var r := Step(st, stages, i, background, os, v);
    ExternalStep(stages, i);
    if r.status == Running {
      assert IsBuiltin(stages[i].pgmlist);
      assert External(stages, i + 1) == External(stages, i);
      PidTableSkip(st.pids, stages, i, os);
    } else {
      assert Upto(r.status, i + 1) == i;
    }
    WiringFrame(st, r, stages, i, i + 1, open0, background, os);
  }

  /** A built-in stage leaves its `pids` slot unassigned. */
  lemma PidTableSkip(pids: seq<Option<int>>, stages: seq<Pgm>, m: nat, os: Os)
    requires Runnable(stages) && m < |stages|
    requires PidTable(pids, stages, m, os) && IsBuiltin(stages[m].pgmlist)
    ensures PidTable(pids, stages, m + 1, os)
  {
  }

  /** Wiring carries over to a state with the same children, trailing pair and pid table. */
  lemma WiringFrame(st: Exec, r: Exec, stages: seq<Pgm>, n: nat, m: nat, open0: set<int>, background: bool, os: Os)
    requires Runnable(stages) && n <= m <= |stages|
    requires Wiring(st, stages, n, open0, background, os)
    requires r.children == st.children && r.pids == st.pids
    requires r.fdin == st.fdin && r.fdout == st.fdout && r.prevRead == st.prevRead && r.prevWrite == st.prevWrite
    requires Upto(r.status, m) <= m
    requires External(stages, Upto(r.status, m)) == External(stages, Upto(st.status, n))
    requires PidTable(st.pids, stages, Upto(r.status, m), os)
    ensures Wiring(r, stages, m, open0, background, os)
  {
  }

  lemma LaunchChildren(before: seq<Child>, c: Child, stages: seq<Pgm>, i: nat, fdout: int,
                       open0: set<int>, background: bool, os: Os)
    requires Runnable(stages) && c.stage == i
    requires ChildrenOk(before, stages, i, fdout, open0, background, os)
    requires ChildOk(c, stages, fdout, open0, background, os)
    ensures ChildrenOk(before + [c], stages, i + 1, fdout, open0, background, os)
  {
    var cs := before + [c];
    forall j | 0 <= j < |cs|
      ensures ChildOk(cs[j], stages, fdout, open0, background, os) && cs[j].stage < i + 1
    {
      if j < |before| {
        assert cs[j] == before[j];
      }
    }
  }

  lemma LaunchChained(before: seq<Child>, c: Child, fdin: int, prevRead: int)
    requires Chained(before, fdin)
    requires before == [] ==> prevRead == fdin
    requires before != [] ==> prevRead == before[|before| - 1].nextRead
    requires c.stdin == prevRead
    ensures Chained(before + [c], fdin)
  {
    var cs := before + [c];
    forall j | 1 <= j < |cs| ensures cs[j].stdin == cs[j - 1].nextRead {
      if j < |before| {
        assert cs[j] == before[j] && cs[j - 1] == before[j - 1];
      }
    }
  }

  lemma LaunchPids(pids: seq<Option<int>>, stages: seq<Pgm>, i: nat, os: Os)
    requires Runnable(stages) && i < |stages| && i < MAX_PIDS
    requires PidTable(pids, stages, i, os)
    requires !IsBuiltin(stages[i].pgmlist)
    ensures PidTable(pids[i := Some(Pid(os, i))], stages, i + 1, os)
  {
  }

  lemma WiringParts(st: Exec, stages: seq<Pgm>, n: nat, open0: set<int>, background: bool, os: Os)
    requires Runnable(stages) && n <= |stages|
    ensures Wiring(st, stages, n, open0, background, os)
            <==> && Upto(st.status, n) <= n
                 && ChildrenOk(st.children, stages, n, st.fdout, open0, background, os)
                 && Chained(st.children, st.fdin)
                 && Trail(st)
                 && StageIndices(st.children) == External(stages, Upto(st.status, n))
                 && PidTable(st.pids, stages, Upto(st.status, n), os)
  {
  }

  /** Appending a well-formed child for stage `i` keeps the wiring facts, now over `0..i]`. */
  lemma LaunchKeepsWiring(st: Exec, r: Exec, c: Child, stages: seq<Pgm>, i: nat,
                          background: bool, os: Os, open0: set<int>)
    requires Runnable(stages) && i < |stages| && |stages| <= MAX_PIDS
    requires st.status == Running && r.status == Running
    requires Wiring(st, stages, i, open0, background, os)
    requires !IsBuiltin(stages[i].pgmlist)
    requires c.stage == i && c.stdin == st.prevRead && c.pid == Pid(os, i)
    requires ChildOk(c, stages, st.fdout, open0, background, os)
    requires r.fdin == st.fdin && r.fdout == st.fdout
    requires r.prevRead == c.nextRead && r.prevWrite == c.stdout
    requires r.children == st.children + [c]
    requires r.pids == st.pids[i := Some(c.pid)]
    ensures Wiring(r, stages, i + 1, open0, background, os)
  {
    WiringParts(st, stages, i, open0, background, os);
    WiringParts(r, stages, i + 1, open0, background, os);
    ExternalStep(stages, i);
    LaunchChildren(st.children, c, stages, i, st.fdout, open0, background, os);
    LaunchChained(st.children, c, st.fdin, st.prevRead);
    LaunchPids(st.pids, stages, i, os);
    StageIndicesSnoc(st.children, c);
  }

  /** A launched stage becomes the newest child, chained to its predecessor, with its pid recorded. */
  lemma StepWiringLaunch(st: Exec, stages: seq<Pgm>, i: nat, background: bool, os: Os, v: Variant, open0: set<int>)
    requires Runnable(stages) && i < |stages| && |stages| <= MAX_PIDS
    requires st.status == Running
    requires Holds(st, open0) && Wiring(st, stages, i, open0, background, os)
    requires Step(st, stages, i, background, os, v).children != st.children
    ensures Wiring(Step(st, stages, i, background, os, v), stages, i + 1, open0, background, os)
  {
    var argv := stages[i].pgmlist;
    var r := Step(st, stages, i, background, os, v);
    var last := i == |stages| - 1;
    assert !IsBuiltin(argv) && r.status == Running;
    var c := r.children[|st.children|];
    assert r.children == st.children + [c];
    assert c == Child(i, argv, st.prevRead, r.prevWrite, r.prevRead, DispositionFor(background), Pid(os, i));
    assert r.pids == st.pids[i := Some(Pid(os, i))];
    assert ChildOk(c, stages, st.fdout, open0, background, os) by {
      if !last {
        assert c.nextRead == PipeRead(st.fds) && c.stdout == PipeWrite(st.fds);
        assert st.fdout > STDOUT ==> st.fdout in st.fds.open;
        assert st.prevRead > STDOUT ==> st.prevRead in st.fds.open;
      } else {
        assert c.stdout == st.fdout && st.fdout != NO_FD;
      }
    }
    LaunchKeepsWiring(st, r, c, stages, i, background, os, open0);
  }

  lemma StepWiring(st: Exec, stages: seq<Pgm>, i: nat, background: bool, os: Os, v: Variant, open0: set<int>)
    requires Runnable(stages) && i < |stages| && |stages| <= MAX_PIDS
    requires st.status == Running
    requires Holds(st, open0) && Wiring(st, stages, i, open0, background, os)
    ensures Wiring(Step(st, stages, i, background, os, v), stages, i + 1, open0, background, os)
  {
    if Step(st, stages, i, background, os, v).children == st.children {
      StepWiringIdle(st, stages, i, background, os, v, open0);
    } else {
      StepWiringLaunch(st, stages, i, background, os, v, open0);
    }
  }

  /** One stage either keeps the loop going or records the first failing stage. */
  lemma StepProgress(st: Exec, stages: seq<Pgm>, i: nat, background: bool, os: Os, v: Variant)
    requires Runnable(stages) && i < |stages| && i < |st.pids|
    requires st.status == Running && Progress(st, stages, i, os)
    ensures Progress(Step(st, stages, i, background, os, v), stages, i + 1, os)
  {
  }

  /** Built-ins touch only the session; a failing stage adds its one report. */
  lemma StepSession(st: Exec, stages: seq<Pgm>, i: nat, background: bool, os: Os, v: Variant, s0: Session)
    requires Runnable(stages) && i < |stages| && i < |st.pids|
    requires st.status == Running && st.session == Dispatched(stages, i, os, s0)
    ensures var r := Step(st, stages, i, background, os, v);
            r.status != OpenFailed
            && r.session == Dispatched(stages, Upto(r.status, i + 1), os, s0).(
                 reports := Dispatched(stages, Upto(r.status, i + 1), os, s0).reports + FailureReport(r.status))
  {
    var r := Step(st, stages, i, background, os, v);
    if r.status == Running {
      assert Upto(r.status, i + 1) == i + 1;
    } else {
      assert Upto(r.status, i + 1) == i;
    }
  }

  /** Whatever the variant, cleanup only closes numbers the command obtained and keeps everything the parent held before. */
  lemma CleanupSane(st: Exec, open0: set<int>, v: Variant)
    requires Sane(st, open0)
    ensures var r := Cleanup(st, v);
            && open0 <= r.fds.open
            && forall k :: 0 <= k < |r.fds.closes| ==> Fresh(r.fds.closes[k], open0)
  {
    var s := Released(st, v);
    CloseAllOpen(st.fds, s);
    CloseAllCloses(st.fds, s);
    var r := Cleanup(st, v);
    assert r.fds.closes == st.fds.closes + Closable(s);
    forall k | 0 <= k < |r.fds.closes| ensures Fresh(r.fds.closes[k], open0) {
      if k >= |st.fds.closes| {
        assert r.fds.closes[k] == Closable(s)[k - |st.fds.closes|];
      }
    }
  }

  /** Closing a list that names each owned descriptor once, and nothing else above stdout, releases them all cleanly. */
  lemma ReleaseExactly(t: Table, s: seq<int>, owned: set<int>, open0: set<int>)
    requires t.open == open0 + owned && owned !! open0
    requires Guarded(set fd | fd in s) == owned
    requires DistinctClosable(s)
    ensures CloseAll(t, s).open == open0
    ensures CloseAll(t, s).strays == t.strays
  {
    CloseAllOpen(t, s);
    forall j | 0 <= j < |s| && s[j] > STDOUT ensures s[j] in t.open {
      assert s[j] in Guarded(set fd | fd in s);
    }
    CloseAllNoStrays(t, s);
  }

  /** After an open failure nothing was forked, and cleanup releases whichever redirection did open, once. */
  lemma CleanupAfterOpenFailure(st: Exec, open0: set<int>, v: Variant)
    requires st.status == OpenFailed && st.children == []
    requires st.prevRead == STDIN && st.prevWrite == NO_FD
    requires Sane(st, open0)
    requires st.fds.open == open0 + Guarded({st.fdin, st.fdout}) && st.fds.strays == []
    ensures Cleanup(st, v).fds.open == open0
    ensures Cleanup(st, v).fds.strays == []
  {
    var s := Released(st, v);
    assert forall fd :: fd in s ==> fd in {st.fdin, st.fdout, STDIN, NO_FD};
    assert st.fdin in s && (st.fdout in s || st.fdout == NO_FD);
    assert Guarded(set fd | fd in s) == Guarded({st.fdin, st.fdout});
    assert DistinctClosable(s);
    ReleaseExactly(st.fds, s, Guarded({st.fdin, st.fdout}), open0);
  }

  /** Repaired cleanup releases exactly what the command still owns, each descriptor once. */
  lemma CleanupRepaired(st: Exec, open0: set<int>)
    requires st.status != OpenFailed
    requires Holds(st, open0)
    ensures Cleanup(st, Repaired).fds.open == open0
    ensures Cleanup(st, Repaired).fds.strays == []
  {
    var s := Released(st, Repaired);
    var owned := Owned(st);
    assert st.fds.open == open0 + owned && owned !! open0;
    if st.children == [] {
      assert s == [st.fdin, st.fdout, NO_FD];
      assert (set fd | fd in s) == {st.fdin, st.fdout, NO_FD};
    } else if st.prevRead == NO_FD {
      assert s == [NO_FD, st.fdout];
      assert (set fd | fd in s) == {st.fdout, NO_FD};
    } else {
      assert s == [st.fdout, st.prevRead, st.prevWrite];
      assert (set fd | fd in s) == {st.fdout, st.prevRead, st.prevWrite};
    }
    ReleaseExactly(st.fds, s, owned, open0);
  }

  /** As written, cleanup still leaves the parent with what it held before, unless a pipe leaked earlier. */
  lemma CleanupAsWritten(st: Exec, open0: set<int>)
    requires st.status != OpenFailed
    requires Holds(st, open0)
    ensures Cleanup(st, AsWritten).fds.open == open0
  {
    var s := Released(st, AsWritten);
    CloseAllOpen(st.fds, s);
    assert Owned(st) <= Guarded(set fd | fd in s);
    assert Guarded(set fd | fd in s) !! open0;
  }

  /** `done` is set exactly when it already was or some stage reached is `exit`. */
  lemma {:induction false} DispatchedDone(stages: seq<Pgm>, n: nat, os: Os, s: Session)
    requires Runnable(stages) && n <= |stages|
    ensures Dispatched(stages, n, os, s).done
            <==> s.done || exists j :: 0 <= j < n && stages[j].pgmlist[0] == "exit"
  {
    if n > 0 {
      DispatchedDone(stages, n - 1, os, s);
      if stages[n - 1].pgmlist[0] == "exit" {
        assert Dispatched(stages, n, os, s).done;
      } else {
        assert (exists j :: 0 <= j < n && stages[j].pgmlist[0] == "exit")
               <==> (exists j :: 0 <= j < n - 1 && stages[j].pgmlist[0] == "exit");
      }
    }
  }

  /** One stage's effect on the working directory. */
  lemma DispatchedTurn(stages: seq<Pgm>, n: nat, os: Os, s: Session)
    requires Runnable(stages) && 0 < n <= |stages|
    ensures Moves(stages, n - 1, os)
            ==> Dispatched(stages, n, os, s).cwd == CdTarget(stages[n - 1].pgmlist).value
    ensures !Moves(stages, n - 1, os)
            ==> Dispatched(stages, n, os, s).cwd == Dispatched(stages, n - 1, os, s).cwd
  {
  }

  lemma {:induction false} DispatchedStays(stages: seq<Pgm>, n: nat, os: Os, s: Session)
    requires Runnable(stages) && n <= |stages|
    ensures (forall k :: 0 <= k < n ==> !Moves(stages, k, os)) ==> Dispatched(stages, n, os, s).cwd == s.cwd
  {
    if n > 0 {
      DispatchedTurn(stages, n, os, s);
      DispatchedStays(stages, n - 1, os, s);
    }
  }

  lemma {:induction false} DispatchedLastMove(stages: seq<Pgm>, n: nat, os: Os, s: Session, j: nat)
    requires Runnable(stages) && j < n <= |stages|
    requires Moves(stages, j, os) && forall k :: j < k < n ==> !Moves(stages, k, os)
    ensures Dispatched(stages, n, os, s).cwd == CdTarget(stages[j].pgmlist).value
  {
    DispatchedTurn(stages, n, os, s);
    if j < n - 1 {
      DispatchedLastMove(stages, n - 1, os, s, j);
    }
  }

  /** `cd` dispatch: the working directory is the target of the last successful `cd`. */
  lemma DispatchedCwd(stages: seq<Pgm>, n: nat, os: Os, s: Session)
    requires Runnable(stages) && n <= |stages|
    ensures (forall k :: 0 <= k < n ==> !Moves(stages, k, os)) ==> Dispatched(stages, n, os, s).cwd == s.cwd
    ensures forall j :: 0 <= j < n && Moves(stages, j, os) && (forall k :: j < k < n ==> !Moves(stages, k, os))
              ==> Dispatched(stages, n, os, s).cwd == CdTarget(stages[j].pgmlist).value
  {
    DispatchedStays(stages, n, os, s);
    forall j | 0 <= j < n && Moves(stages, j, os) && (forall k :: j < k < n ==> !Moves(stages, k, os))
      ensures Dispatched(stages, n, os, s).cwd == CdTarget(stages[j].pgmlist).value
    {
      DispatchedLastMove(stages, n, os, s, j);
    }
  }
}

=== FILE: lsh.dfy ===
/**
 * `handle_command` of lsh.c: one parsed command, from opening its
 * redirections to the cleanup that every path reaches.
 */
module Lsh {
  import opened Wrappers
  import opened Parse
  import opened Stages
  import opened Descriptors
  import opened Executor
  import opened Handle
  import opened HandleProofs
  import opened Pipeline

  /**
   * The `for` loop of lines 130-224: launch the stages in execution order
   * until all are done or one takes the `goto cleanup`.
   */
  method StageLoop(st0: Exec, pgms: seq<Pgm>, open0: set<int>, background: bool, os: Os,
                   session: Session, v: Variant) returns (st: Exec, i: nat)
    requires Runnable(pgms)
    requires Looping(st0, pgms, 0, st0.fdin, st0.fdout, open0, background, os, session, v)
    ensures Looping(st, pgms, i, st0.fdin, st0.fdout, open0, background, os, session, v)
    ensures i == |pgms| || st.status != Running
    ensures |st0.pids| == MAX_PIDS && st == Loop(st0, pgms, 0, background, os, v)
  {
    st, i := st0, 0;
    while i < |pgms| && st.status == Running
      invariant Looping(st, pgms, i, st0.fdin, st0.fdout, open0, background, os, session, v)
      invariant |st.pids| == MAX_PIDS
      invariant Loop(st, pgms, i, background, os, v) == Loop(st0, pgms, 0, background, os, v)
    {
      LoopStep(st, pgms, i, st0.fdin, st0.fdout, open0, background, os, session, v);
      LoopTurn(st, pgms, i, background, os, v);
      st := Step(st, pgms, i, background, os, v);
      i := i + 1;
    }
    LoopTurn(st, pgms, i, background, os, v);
  }

  /**
   * Runs one command against the operating system's answers `os`, starting
   * from the parent's open descriptors `open0` and the shell session.
   * The parser never hands over a null stage list nor more than 20 stages,
   * and the `pids` array relies on that bound; the shell runs with its three
   * standard descriptors open.
   */
  method HandleCommand(cmd: Command, os: Os, open0: set<int>, session: Session, v: Variant) returns (r: Exec)
    requires cmd.pgm.Node?
    requires WellFormed(cmd.pgm)
    requires |Nodes(cmd.pgm)| <= MAX_PIDS
    requires StdioOpen(open0)
    ensures Runnable(ExecutionOrder(cmd.pgm))
    ensures Redirected(cmd, os, open0, session, r)
    ensures Launched(ExecutionOrder(cmd.pgm), os, open0, cmd.background, r)
    ensures SessionAfter(ExecutionOrder(cmd.pgm), os, session, r)
    ensures Waited(ExecutionOrder(cmd.pgm), os, cmd.background, v, r)
    ensures Returned(open0, v, |Nodes(cmd.pgm)|, r)
    ensures r == Run(cmd, os, open0, session, v)
  {
    var st := Begin(cmd, os, open0, session);
    ExecutionOrderRunnable(cmd.pgm);
    if st.status == OpenFailed {
      FinishOpenFailed(cmd, os, open0, session, v, ExecutionOrder(cmd.pgm));
      r := Cleanup(st, v);
      return;
    }

    var count := CountPrograms(cmd.pgm);
    var pgms := ReverseArray(cmd.pgm, count);
    assert pgms == ExecutionOrder(cmd.pgm);
    LoopStart(cmd, os, open0, session, v, pgms);
    var last, i := StageLoop(st, pgms, open0, cmd.background, os, session, v);
    FinishRedirected(cmd, os, open0, session, v, last, pgms, i);
    FinishLaunched(last, pgms, i, open0, cmd.background, os, session, v);
    FinishWaited(last, pgms, i, open0, cmd.background, os, session, v);
    FinishReturned(last, pgms, i, open0, cmd.background, os, session, v);
    r := Cleanup(Waiting(last, count, cmd.background, v), v);
  }
}

=== FILE: parse.dfy ===
/**
 * The command description the external parser fills in (parse.h).
 * A stage list is linked through `next` in parse order, which is the
 * reverse of execution order: the last stage of the pipeline comes first.
 */
module Parse {
  import opened Wrappers

  /** One pipeline stage (`struct c` / `Pgm`); `Nil` is the null pointer. */
  datatype Pgm = Nil | Node(pgmlist: seq<string>, next: Pgm)

  /** The whole command (`struct node` / `Command`); absent paths are `None`. */
  datatype Command = Command(
    pgm: Pgm,
    rstdin: Option<string>,
    rstdout: Option<string>,
    rstderr: Option<string>,
    background: bool)

  /** The nodes reachable from `p` through `next`, in parse order, `p` itself first. */
  function Nodes(p: Pgm): (r: seq<Pgm>)
    ensures |r| == 0 <==> p.Nil?
    ensures p.Node? ==> r[0] == p
    ensures forall k :: 0 <= k < |r| ==> r[k].Node?
    ensures forall k :: 0 <= k < |r| - 1 ==> r[k].Node? && r[k + 1] == r[k].next
    ensures |r| > 0 ==> r[|r| - 1].Node? && r[|r| - 1].next == Nil
  {
    match p
    case Nil => []
    case Node(_, n) => [p] + Nodes(n)
  }

  /** Every stage has a program name: the parser never produces an empty argument vector. */
  predicate WellFormed(p: Pgm)
  {
    forall k :: 0 <= k < |Nodes(p)| ==> |Nodes(p)[k].pgmlist| > 0
  }
}

=== FILE: pipeline.dfy ===
/**
 * The whole of `handle_command` of lsh.c as one recursive function,
 * the predicates that describe its outcome, and the lemmas that carry the
 * stage loop's invariant from one turn to the next.
 */
module Pipeline {
  import opened Wrappers
  import opened Parse
  import opened Stages
  import opened Descriptors
  import opened Executor
  import opened Handle
  import opened HandleProofs

  /** Either redirection `open` fails. */
  predicate OpenFails(cmd: Command, os: Os)
  {
    (cmd.rstdin.Some? && !os.inOpens) || (cmd.rstdout.Some? && !os.outOpens)
  }

  /** The redirection descriptors, and the fail-fast check on them (lines 99-118). */
  predicate Redirected(cmd: Command, os: Os, open0: set<int>, session: Session, r: Exec)
  {
    && (cmd.rstdin.None? ==> r.fdin == STDIN)
    && (cmd.rstdin.Some? && os.inOpens ==> Fresh(r.fdin, open0))
    && (cmd.rstdout.None? ==> r.fdout == STDOUT)
    && (cmd.rstdout.Some? && os.outOpens ==> Fresh(r.fdout, open0))
    && (r.status == OpenFailed <==> OpenFails(cmd, os))
    && (r.status == OpenFailed ==> r.children == [] && r.waits == [])
    && (cmd.rstdin.Some? && !os.inOpens
        ==> r.session == session.(reports := session.reports + [CannotRead(cmd.rstdin.value)]))
    && (!(cmd.rstdin.Some? && !os.inOpens) && cmd.rstdout.Some? && !os.outOpens
        ==> r.session == session.(reports := session.reports + [CannotWrite(cmd.rstdout.value)]))
  }

  /**
   * The children launched: one per external stage up to the point where
   * launching stopped, each wired as `ChildOk` and `Chained` say; launching
   * stops only at the first external stage whose pipe or fork fails.
   */
  predicate Launched(stages: seq<Pgm>, os: Os, open0: set<int>, background: bool, r: Exec)
    requires Runnable(stages)
  {
    && ChildrenOk(r.children, stages, |stages|, r.fdout, open0, background, os)
    && Chained(r.children, r.fdin)
    && Upto(r.status, |stages|) <= |stages|
    && (r.status != OpenFailed ==> StageIndices(r.children) == External(stages, Upto(r.status, |stages|)))
    && (r.status == Running ==>
          forall j :: 0 <= j < |stages| && !IsBuiltin(stages[j].pgmlist) ==> !Fails(os, j, |stages|))
    && (r.status.PipeFailed? ==> FirstFailure(stages, os, r.status.stage) && r.status.stage in os.pipeFails)
    && (r.status.ForkFailed? ==> FirstFailure(stages, os, r.status.stage) && r.status.stage in os.forkFails)
  }

  /** The built-ins of the stages reached ran in order; a stage failure added its one report. */
  predicate SessionAfter(stages: seq<Pgm>, os: Os, session: Session, r: Exec)
    requires Runnable(stages)
  {
    r.status != OpenFailed && Upto(r.status, |stages|) <= |stages|
    ==> r.session == Dispatched(stages, Upto(r.status, |stages|), os, session).(
          reports := Dispatched(stages, Upto(r.status, |stages|), os, session).reports
                     + FailureReport(r.status))
  }

  /** Which pids the foreground wait is given (lines 227-237). */
  predicate Waited(stages: seq<Pgm>, os: Os, background: bool, v: Variant, r: Exec)
    requires Runnable(stages)
  {
    && (r.status != Running || background ==> r.waits == [])
    && (r.status == Running && !background && v == AsWritten ==>
          |r.waits| == |stages|
          && forall i :: 0 <= i < |stages| ==>
               r.waits[i] == (if IsBuiltin(stages[i].pgmlist) then None else Some(Pid(os, i))))
    && (r.status == Running && !background && v == Repaired ==>
          |r.waits| == |r.children|
          && forall j :: 0 <= j < |r.children| ==> r.waits[j] == Some(r.children[j].pid))
  }

  /**
   * Descriptor ownership after cleanup: only numbers the command obtained are
   * ever closed, nothing the parent held before is lost, and everything the
   * command obtained is released again, except for the pipe the as-written
   * fork-failure path leaves open. Repaired, no close goes astray.
   */
  predicate Returned(open0: set<int>, v: Variant, count: nat, r: Exec)
  {
    && open0 <= r.fds.open
    && (forall k :: 0 <= k < |r.fds.closes| ==> Fresh(r.fds.closes[k], open0))
    && (v == Repaired ==> r.fds.open == open0 && r.fds.strays == [])
    && (!Leaky(r, v, count) ==> r.fds.open == open0)
  }

  /** The stage loop as a recursive function: step through the stages until one takes the `goto cleanup`. */
  function Loop(st: Exec, pgms: seq<Pgm>, i: nat, background: bool, os: Os, v: Variant): (r: Exec)
    requires Runnable(pgms) && i <= |pgms| <= |st.pids|
    ensures |r.pids| == |st.pids|
    decreases |pgms| - i
  {
    if i < |pgms| && st.status == Running then Loop(Step(st, pgms, i, background, os, v), pgms, i + 1, background, os, v)
    else st
  }

  /** A whole command as one function: begin, the stage loop, the foreground wait, cleanup. */
  function Run(cmd: Command, os: Os, open0: set<int>, session: Session, v: Variant): Exec
    requires cmd.pgm.Node? && WellFormed(cmd.pgm) && |Nodes(cmd.pgm)| <= MAX_PIDS
    requires StdioOpen(open0)
  {
    ExecutionOrderRunnable(cmd.pgm);
    var st := Begin(cmd, os, open0, session);
    var pgms := ExecutionOrder(cmd.pgm);
    if st.status == OpenFailed then Cleanup(st, v)
    else Cleanup(Waiting(Loop(st, pgms, 0, cmd.background, os, v), |pgms|, cmd.background, v), v)
  }

  /** Where the recursion goes after one more turn of the loop, and where it stops. */
  lemma LoopTurn(st: Exec, pgms: seq<Pgm>, i: nat, background: bool, os: Os, v: Variant)
    requires Runnable(pgms) && i <= |pgms| <= |st.pids|
    ensures i < |pgms| && st.status == Running
            ==> Loop(st, pgms, i, background, os, v) == Loop(Step(st, pgms, i, background, os, v), pgms, i + 1, background, os, v)
    ensures !(i < |pgms| && st.status == Running) ==> Loop(st, pgms, i, background, os, v) == st
  {
  }

  /** What holds each time the stage loop tests its condition, `i` stages in. */
  predicate Looping(st: Exec, pgms: seq<Pgm>, i: nat, fdin: int, fdout: int,
                    open0: set<int>, background: bool, os: Os, session: Session, v: Variant)
    requires Runnable(pgms)
  {
    && i <= |pgms| <= MAX_PIDS
    && st.fdin == fdin && st.fdout == fdout
    && st.waits == []
    && Wiring(st, pgms, i, open0, background, os)
    && Progress(st, pgms, i, os)
    && st.session == Dispatched(pgms, Upto(st.status, i), os, session).(
         reports := Dispatched(pgms, Upto(st.status, i), os, session).reports + FailureReport(st.status))
    && Sane(st, open0)
    && (Holds(st, open0) || Leaky(st, v, |pgms|))
    && (st.status == Running && i < |pgms| ==> st.prevRead != NO_FD)
  }

  lemma LoopStart(cmd: Command, os: Os, open0: set<int>, session: Session, v: Variant, pgms: seq<Pgm>)
    requires Runnable(pgms) && |pgms| <= MAX_PIDS
    requires StdioOpen(open0)
    requires Begin(cmd, os, open0, session).status != OpenFailed
    ensures var st := Begin(cmd, os, open0, session);
            Looping(st, pgms, 0, st.fdin, st.fdout, open0, cmd.background, os, session, v)
  {
  }

  lemma LoopStep(st: Exec, pgms: seq<Pgm>, i: nat, fdin: int, fdout: int,
                 open0: set<int>, background: bool, os: Os, session: Session, v: Variant)
    requires Runnable(pgms)
    requires Looping(st, pgms, i, fdin, fdout, open0, background, os, session, v)
    requires i < |pgms| && st.status == Running
    ensures Looping(Step(st, pgms, i, background, os, v), pgms, i + 1, fdin, fdout, open0, background, os, session, v)
  {
    StepOwnership(st, pgms, i, background, os, v, open0);
    StepWiring(st, pgms, i, background, os, v, open0);
    StepProgress(st, pgms, i, background, os, v);
    StepSession(st, pgms, i, background, os, v, session);
  }

  /** The state the loop leaves behind, after the foreground wait when the loop ran to the end. */
  function Waiting(st: Exec, count: nat, background: bool, v: Variant): Exec
    requires count <= |st.pids|
  {
    if st.status == Running then Wait(st, count, background, v) else st
  }

  lemma FinishLaunched(st: Exec, pgms: seq<Pgm>, i: nat, open0: set<int>, background: bool, os: Os,
                       session: Session, v: Variant)
    requires Runnable(pgms)
    requires Looping(st, pgms, i, st.fdin, st.fdout, open0, background, os, session, v)
    requires i == |pgms| || st.status != Running
    ensures |st.pids| == MAX_PIDS
    ensures var r := Cleanup(Waiting(st, |pgms|, background, v), v);
            Launched(pgms, os, open0, background, r) && SessionAfter(pgms, os, session, r)
  {
    assert Upto(st.status, i) == Upto(st.status, |pgms|);
  }

  lemma FinishWaited(st: Exec, pgms: seq<Pgm>, i: nat, open0: set<int>, background: bool, os: Os,
                     session: Session, v: Variant)
    requires Runnable(pgms)
    requires Looping(st, pgms, i, st.fdin, st.fdout, open0, background, os, session, v)
    requires i == |pgms| || st.status != Running
    ensures |st.pids| == MAX_PIDS
    ensures Waited(pgms, os, background, v, Cleanup(Waiting(st, |pgms|, background, v), v))
  {
  }

  lemma FinishReturned(st: Exec, pgms: seq<Pgm>, i: nat, open0: set<int>, background: bool, os: Os,
                       session: Session, v: Variant)
    requires Runnable(pgms)
    requires Looping(st, pgms, i, st.fdin, st.fdout, open0, background, os, session, v)
    ensures |st.pids| == MAX_PIDS
    ensures Returned(open0, v, |pgms|, Cleanup(Waiting(st, |pgms|, background, v), v))
  {
    var w := Waiting(st, |pgms|, background, v);
    CleanupSane(w, open0, v);
    if Holds(w, open0) {
      CleanupRepaired(w, open0);
      CleanupAsWritten(w, open0);
    }
  }

  lemma FinishRedirected(cmd: Command, os: Os, open0: set<int>, session: Session, v: Variant,
                         st: Exec, pgms: seq<Pgm>, i: nat)
    requires Runnable(pgms)
    requires StdioOpen(open0)
    requires Begin(cmd, os, open0, session).status != OpenFailed
    requires Looping(st, pgms, i, Begin(cmd, os, open0, session).fdin, Begin(cmd, os, open0, session).fdout,
                     open0, cmd.background, os, session, v)
    ensures |st.pids| == MAX_PIDS
    ensures Redirected(cmd, os, open0, session, Cleanup(Waiting(st, |pgms|, cmd.background, v), v))
  {
  }

  /** The `goto cleanup` straight after a failed redirection `open`. */
  lemma FinishOpenFailed(cmd: Command, os: Os, open0: set<int>, session: Session, v: Variant, pgms: seq<Pgm>)
    requires Runnable(pgms)
    requires StdioOpen(open0)
    requires Begin(cmd, os, open0, session).status == OpenFailed
    ensures var r := Cleanup(Begin(cmd, os, open0, session), v);
            && Redirected(cmd, os, open0, session, r)
            && Launched(pgms, os, open0, cmd.background, r)
            && SessionAfter(pgms, os, session, r)
            && Waited(pgms, os, cmd.background, v, r)
            && Returned(open0, v, |pgms|, r)
  {
    var st := Begin(cmd, os, open0, session);
    CleanupSane(st, open0, v);
    CleanupAfterOpenFailure(st, open0, v);
  }
}

=== FILE: stages.dfy ===
/**
 * The pure helpers that turn the parser's stage list into execution order:
 * `count_programs` and `reverse_array` of lsh.c.
 */
module Stages {
  import opened Parse

  /** Reference reversal of a sequence. */
  function Reverse<T>(s: seq<T>): seq<T>
  {
    if s == [] then [] else Reverse(s[1..]) + [s[0]]
  }

  lemma {:induction false} ReverseIndex<T>(s: seq<T>)
    ensures |Reverse(s)| == |s|
    ensures forall i :: 0 <= i < |s| ==> Reverse(s)[i] == s[|s| - 1 - i]
  {
    if s != [] {
      ReverseIndex(s[1..]);
    }
  }

  /** Reversing twice gives back the parse-order list. */
  lemma ReverseInvolution<T>(s: seq<T>)
    ensures Reverse(Reverse(s)) == s
  {
    ReverseIndex(s);
    ReverseIndex(Reverse(s));
  }

  /** The stages in the order they are run: index 0 is the first program of the pipeline. */
  function ExecutionOrder(head: Pgm): seq<Pgm>
  {
    Reverse(Nodes(head))
  }

  /** A stage list ready to run: every entry is a node with a program name. */
  predicate Runnable(stages: seq<Pgm>)
  {
    forall i :: 0 <= i < |stages| ==> stages[i].Node? && |stages[i].pgmlist| > 0
  }

  /** A well-formed parse-order list yields a runnable execution order. */
  lemma ExecutionOrderRunnable(head: Pgm)
    requires WellFormed(head)
    ensures |ExecutionOrder(head)| == |Nodes(head)|
    ensures Runnable(ExecutionOrder(head))
  {
    ReverseIndex(Nodes(head));
  }

  /** `count_programs`: walks `next` from the head and counts the nodes. */
  method CountPrograms(head: Pgm) returns (count: nat)
    ensures count == |Nodes(head)|
    ensures count == 0 <==> head == Nil
  {
    count := 0;
    var pgm := head;
    while pgm != Nil
      invariant count + |Nodes(pgm)| == |Nodes(head)|
      decreases pgm
    {
      count := count + 1;
      pgm := pgm.next;
    }
  }

  /**
   * `reverse_array`: fills an array of `count` node references back to front
   * while walking the list from the head, so the head lands at index `count-1`.
   * The walk dereferences `count` nodes, so the list must be at least that long.
   */
  method ReverseArray(head: Pgm, count: nat) returns (pgms: seq<Pgm>)
    requires count <= |Nodes(head)|
    ensures |pgms| == count
    ensures forall i :: 0 <= i < count ==> pgms[i] == Nodes(head)[count - 1 - i]
    ensures count > 0 ==> pgms[count - 1] == head
    ensures count == |Nodes(head)| ==> pgms == ExecutionOrder(head)
  {
    pgms := seq(count, _ => Nil);
    var pgm := head;
    var i: int := count - 1;
    while i >= 0
      invariant -1 <= i < count
      invariant |pgms| == count
      invariant i >= 0 ==> pgm == Nodes(head)[count - 1 - i]
      invariant forall j :: i < j < count ==> pgms[j] == Nodes(head)[count - 1 - j]
    {
      if i > 0 {
        assert Nodes(head)[count - i] == Nodes(head)[count - 1 - i].next;
      }
      pgms := pgms[i := pgm];
      pgm := pgm.next;
      i := i - 1;
    }
    if count == |Nodes(head)| {
      ReverseIndex(Nodes(head));
      assert forall k :: 0 <= k < count ==> pgms[k] == ExecutionOrder(head)[k];
    }
  }
}

=== FILE: strip.dfy ===
/**
 * `strip_white` of lsh.c: trims the blanks readline's `whitespace` macro
 * recognises (space and tab) from both ends of a line.
 */
module Strip {

  /** readline's `whitespace(c)`: a space or a tab, nothing else. */
  predicate Whitespace(c: char)
  {
    c == ' ' || c == '\t'
  }

  predicate AllWhite(s: string)
  {
    forall k :: 0 <= k < |s| ==> Whitespace(s[k])
  }

  /** Reference definitions: drop blanks from the front, then from the back. */
  function TrimLeft(s: string): string
  {
    if |s| > 0 && Whitespace(s[0]) then TrimLeft(s[1..]) else s
  }

  function TrimRight(s: string): string
  {
    if |s| > 0 && Whitespace(s[|s| - 1]) then TrimRight(s[..|s| - 1]) else s
  }

  function Trim(s: string): string
  {
    TrimRight(TrimLeft(s))
  }

  lemma {:induction false} TrimLeftSkips(s: string, i: nat)
    requires i <= |s| && AllWhite(s[..i])
    ensures TrimLeft(s) == TrimLeft(s[i..])
  {
    if i > 0 {
      assert Whitespace(s[..i][0]);
      var tail := s[1..];
      var pre := tail[..i - 1];
      assert AllWhite(pre) by {
        forall k | 0 <= k < i - 1 ensures Whitespace(pre[k]) {
          assert pre[k] == s[..i][k + 1];
        }
      }
      TrimLeftSkips(tail, i - 1);
      assert tail[i - 1..] == s[i..];
    }
  }

  lemma {:induction false} TrimRightSkips(s: string, j: nat)
    requires j <= |s| && AllWhite(s[j..])
    ensures TrimRight(s) == TrimRight(s[..j])
  {
    if j < |s| {
      assert Whitespace(s[j..][|s| - 1 - j]);
      assert s[j..][|s| - 1 - j] == s[|s| - 1];
      var s' := s[..|s| - 1];
      assert TrimRight(s) == TrimRight(s');
      assert AllWhite(s'[j..]) by {
        forall k | 0 <= k < |s'| - j ensures Whitespace(s'[j..][k]) {
          assert s'[j..][k] == s[j..][k];
        }
      }
      TrimRightSkips(s', j);
      assert s'[..j] == s[..j];
    } else {
      assert s[..j] == s;
    }
  }

  /** What is left after trimming: a slice of the input with blanks only around it. */
  lemma {:induction false} TrimLeftShape(s: string) returns (i: nat)
    ensures i <= |s| && TrimLeft(s) == s[i..] && AllWhite(s[..i])
    ensures i < |s| ==> !Whitespace(s[i])
  {
    if |s| > 0 && Whitespace(s[0]) {
      var tail := s[1..];
      var k := TrimLeftShape(tail);
      i := k + 1;
      assert tail[k..] == s[i..];
      var pre := s[..i];
      assert AllWhite(pre) by {
        forall n | 0 <= n < i ensures Whitespace(pre[n]) {
          if n > 0 {
            assert pre[n] == tail[..k][n - 1];
          }
        }
      }
    } else {
      i := 0;
      assert s[0..] == s && s[..0] == [];
    }
  }

  lemma {:induction false} TrimRightShape(s: string) returns (j: nat)
    ensures j <= |s| && TrimRight(s) == s[..j] && AllWhite(s[j..])
    ensures j > 0 ==> !Whitespace(s[j - 1])
  {
    if |s| > 0 && Whitespace(s[|s| - 1]) {
      var s' := s[..|s| - 1];
      j := TrimRightShape(s');
      assert s'[..j] == s[..j];
      assert AllWhite(s[j..]) by {
        forall n | 0 <= n < |s| - j ensures Whitespace(s[j..][n]) {
          if n < |s'| - j {
            assert s[j..][n] == s'[j..][n];
          }
        }
      }
      if j > 0 {
        assert s'[j - 1] == s[j - 1];
      }
    } else {
      j := |s|;
      assert s[..|s|] == s && s[|s|..] == [];
    }
  }

  /** A line without blanks at either end is left alone. */
  lemma TrimClean(s: string)
    requires s == [] || (!Whitespace(s[0]) && !Whitespace(s[|s| - 1]))
    ensures Trim(s) == s
  {
  }

  /** A line that trims to nothing was blank throughout. */
  lemma AllWhiteJoin(s: string, i: nat)
    requires i <= |s| && AllWhite(s[..i]) && AllWhite(s[i..])
    ensures AllWhite(s)
  {
    forall k | 0 <= k < |s| ensures Whitespace(s[k]) {
      if k < i {
        assert s[k] == s[..i][k];
      } else {
        assert s[k] == s[i..][k - i];
      }
    }
  }

  /** The bounds of the slice `Trim` keeps. */
  lemma TrimBounds(s: string) returns (i: nat, j: nat)
    ensures i <= j <= |s| && Trim(s) == s[i..j] && AllWhite(s[..i]) && AllWhite(s[j..])
    ensures i < j ==> !Whitespace(s[i]) && !Whitespace(s[j - 1])
  {
    i := TrimLeftShape(s);
    var t := s[i..];
    var m := TrimRightShape(t);
    j := i + m;
    assert t[..m] == s[i..j];
    assert t[m..] == s[j..];
    if m > 0 {
      assert t[0] == s[i] && t[m - 1] == s[j - 1];
    }
  }

  /** `Trim` keeps exactly the slice from the first to the last non-blank character. */
  lemma TrimCharacterised(s: string)
    ensures exists i, j :: 0 <= i <= j <= |s| && Trim(s) == s[i..j]
                           && AllWhite(s[..i]) && AllWhite(s[j..])
    ensures Trim(s) == [] || (!Whitespace(Trim(s)[0]) && !Whitespace(Trim(s)[|Trim(s)| - 1]))
    ensures Trim(s) == [] <==> AllWhite(s)
  {
    var i, j := TrimBounds(s);
    if i == j {
      AllWhiteJoin(s, i);
    } else {
      assert Trim(s)[0] == s[i];
      assert !AllWhite(s);
    }
  }

  /** Trimming twice is trimming once. */
  lemma TrimIdempotent(s: string)
    ensures Trim(Trim(s)) == Trim(s)
  {
    TrimCharacterised(s);
    TrimClean(Trim(s));
  }

  /**
   * `strip_white`: skips the leading blanks, shifts the rest to the front,
   * then walks back from the end over trailing blanks, stopping at index 0.
   * The C shift is `strcpy` between overlapping buffers, which C leaves
   * undefined; the model performs the intended left shift.
   */
  method StripWhite(s: string) returns (r: string)
    ensures r == Trim(s)
    ensures exists i, j :: 0 <= i <= j <= |s| && r == s[i..j] && AllWhite(s[..i]) && AllWhite(s[j..])
    ensures r == [] || (!Whitespace(r[0]) && !Whitespace(r[|r| - 1]))
    ensures r == [] <==> AllWhite(s)
  {
    var i := 0;
    while i < |s| && Whitespace(s[i])
      invariant 0 <= i <= |s|
      invariant AllWhite(s[..i])
    {
      assert s[..i + 1] == s[..i] + [s[i]];
      i := i + 1;
    }
    TrimLeftSkips(s, i);
    var t := s[i..];
    assert TrimLeft(t) == t;

    var j: int := |t| - 1;
    while j > 0 && Whitespace(t[j])
      invariant -1 <= j < |t|
      invariant |t| > 0 ==> 0 <= j
      invariant AllWhite(t[j + 1..])
    {
      assert t[j..] == [t[j]] + t[j + 1..];
      j := j - 1;
    }
    TrimRightSkips(t, j + 1);
    r := t[..j + 1];
    TrimCharacterised(s);
  }
}

=== FILE: wrappers.dfy ===
/** Optional values: the model's stand-in for a C pointer that may be NULL. */
module Wrappers {

  datatype Option<+T> = None | Some(value: T)
}
